=== FILE: README.md ===
# Allowance tracker core, modelled in Dafny

A model of the money-moving core of a family allowance tracker. Parents
configure per-child weekly allowance settings in three categories: SPENDING
and GIVING in cents per week, and SAVING as a yearly interest rate in basis
points. A scheduled engine turns elapsed whole weeks into ledger rows. The
model covers:

- the engine's per-user step and its batch loop (`app/api/allowance/run/route.ts`);
- the development reset harness that rewinds a user and re-runs the engine
  (`app/api/allowance/test/route.ts`);
- the parent-only bulk generator of test rows (`app/api/test-transactions/route.ts`);
- the delete action with its parent-or-creator rule (`app/actions.ts`);
- the currency formatter (`lib/utils.ts`);
- the username form's schema, availability check and submit condition
  (`app/signup/UsernameForm.tsx`).

The store is one immutable `State`:

- a map of users with their run-state (`lastAllowanceRun`,
  `lastAllowanceAttempt`, `allowanceRunCount`);
- the membership rows, in store order;
- the versioned settings;
- the append-only ledger;
- a counter for fresh transaction ids.

Each endpoint is a pure function, or a method, from a store and its request
to a new store and a response. Timestamps are integer milliseconds and money
is integer cents. Storage failures cannot be observed from the code, so they
are inputs: a `commitFails` flag for one step, a `failing` set of users for a
batch, and a `storeFails` flag for the generator.

Modules follow the program's structure:

| file | module | contents |
|---|---|---|
| domain.dfy | `Domain` | entities, `Option`/`Result`, the id-uniqueness invariant `Wf`, first membership |
| settings.dfy | `Settings` | resolving the effective (latest) setting per category |
| ledger.dfy | `Ledger` | the SAVING principal as a ledger sum, lookup by id, removing a user's system rows |
| accrual.dfy | `Accrual` | rate limit, whole weeks, `calculateWeeklyAllowance`, the per-user step |
| accrual_facts.dfy | `AccrualFacts` | arithmetic and no-double-pay properties of the step |
| batch.dfy | `Batch` | the run endpoint: authorisation, the loop, the summary |
| batch_facts.dfy | `BatchFacts` | non-interference, failure isolation, idempotent re-run |
| harness.dfy | `Harness` | the reset harness |
| harness_facts.dfy | `HarnessFacts` | reset-then-run pays exactly the rewound weeks |
| test_transactions.dfy | `TestTransactions` | the bulk generator |
| deletion.dfy | `Deletion` | `deleteTransaction` |
| format.dfy | `Format` | `formatAmount` and its read-back |
| username.dfy | `Username` | the username form |

Behaviours of the code that the model keeps:

- **Settings lookup scope.** The engine's settings lookup is not restricted
  to the paid family; the generator's is. The model keeps this difference
  with `Scope.AllFamilies` and `Scope.OnlyFamily`.
- **Negative week counts.** The engine skips a user only when `weeksToRun`
  is exactly zero. A start date in the future therefore gives a negative
  week count, and the engine posts negative SPENDING and GIVING rows. The
  model keeps this behaviour (`FutureStartGivesNegativeWeeks`,
  `ResetByNegativeWeeksPostsNegative`).
- **Non-finite saving amounts.** A SAVING rate of -520000 basis points makes
  the growth factor zero. Together with a negative week count, this gives a
  non-finite saving amount. The model turns that case into a failed step
  (`AmountNotFinite`) that is logged like any other per-user error.
- **Failed commits are retried at once.** The attempt time is written only
  inside the committed transaction. A user whose commit failed is therefore
  not rate-limited afterwards, and a later call, even at the same instant,
  pays it if the commit then succeeds (`FailedCommitRetriedAtOnce`). The
  no-double-pay properties of the batch hold under the same storage
  failures.
- **`Math.round`.** It is read as `Floor(x + 0.5)`, over exact reals.

## Model

| member | source | states |
|---|---|---|
| Domain.FirstMembership | app/api/allowance/run/route.ts:117-118 | the chosen membership is the user's first row in store order; none exactly when the user has no membership row |
| Settings.Latest | app/api/allowance/run/route.ts:104-109 | the effective setting of a category applies to the user and is at least as recent as every other applicable version; none exactly when no version applies |
| Settings.LatestPerCategory | app/api/test-transactions/route.ts:34-44 | at most one effective setting per category, each one the latest of its category; empty exactly when the user has no setting in scope |
| Settings.NewVersionTakesEffect | app/api/allowance/run/route.ts:104-109 | inserting a version dated after all others of its category makes it the effective one |
| Ledger.PrincipalAppend | app/api/allowance/run/route.ts:31-43 | the SAVING principal of a concatenated ledger is the sum of the principals of the parts |
| Ledger.PrincipalRemoveAt | app/actions.ts:38 | removing one row lowers the principal by exactly that row's SAVING contribution |
| Ledger.FindById | app/actions.ts:14-28 | finds the index of the row with the given id, or none exactly when no row has it |
| Ledger.WithoutSystemRowsOf | app/api/allowance/test/route.ts:28-34 | keeps exactly the rows that are not system rows of the owner, and keeps ids unique |
| Accrual.WeeksToRun | app/api/allowance/run/route.ts:126-127 | the week count is the floor of elapsed time over a week: w weeks fit in the gap and w+1 do not |
| Accrual.PowNat | app/api/allowance/run/route.ts:56 | a power of a non-zero base is non-zero; a power of a base of at least 1 is at least 1 |
| Accrual.Round | app/api/allowance/run/route.ts:57 | rounds to the nearest integer with halves rounded up |
| Accrual.SavingIncrease | app/api/allowance/run/route.ts:43-57 | the saving growth is a finite number exactly when the weekly growth factor is not raised from zero to a negative power |
| Accrual.CalculateWeeklyAllowance | app/api/allowance/run/route.ts:16-64 | the amounts are defined exactly when the saving growth is finite |
| Accrual.PlanFor | app/api/allowance/run/route.ts:115-136 | a user is skipped for no family exactly when it has no membership; a due user is paid in its first family, is not rate-limited, has a non-zero floor week count, and its three settings are the latest of each category; a missing-setting skip means some category has no setting |
| Accrual.PlanForFollowsChecks | app/api/allowance/run/route.ts:115-136 | each skip reason holds exactly when its check is the first to fail, in the source's order: no membership, then a recent attempt, then a zero week count, then a missing category; a user passing all four checks is due |
| Accrual.AllowanceRows | app/api/allowance/run/route.ts:148-184 | three system rows SPENDING, SAVING, GIVING with the given amounts, consecutive fresh ids, dated now, owned and created by the user in the given family |
| Accrual.AppendFreshKeepsWf | app/api/allowance/run/route.ts:148-184 | appending rows with consecutive ids from the next fresh id keeps all ids unique and below the counter |
| Accrual.RunUser | app/api/allowance/run/route.ts:115-212 | the step posts exactly when the user is due, the growth is finite and the commit succeeds; it skips exactly when the plan skips, with the plan's reason; a skip or a failure leaves the store unchanged; a post appends the three rows and advances exactly this user's run-state |
| Accrual.RunUserErrorKinds | app/api/allowance/run/route.ts:148-212 | a step fails with a non-finite amount exactly when a due user's saving growth is not finite, and with a commit failure exactly when the growth is finite but the commit fails |
| Accrual.RunUserKeepsWf | app/api/allowance/run/route.ts:148-193 | a step keeps transaction ids unique and below the counter |
| AccrualFacts.RateLimitedInMillis | app/api/allowance/run/route.ts:120-124 | the hours comparison is a 12-hour window measured in milliseconds since the last attempt |
| AccrualFacts.PowNatOfOne | app/api/allowance/run/route.ts:56 | helper for ZeroRateEarnsNothing: every power of one is one |
| AccrualFacts.ZeroPrincipalEarnsNothing | app/api/allowance/run/route.ts:43-57 | a zero principal earns nothing at any rate over any defined week count |
| AccrualFacts.ZeroRateEarnsNothing | app/api/allowance/run/route.ts:46-57 | a zero rate earns nothing on any principal over any week count, negative counts included |
| AccrualFacts.SavingGrowthNonNegative | app/api/allowance/run/route.ts:56-57 | over a non-negative week count, a non-negative principal at a non-negative rate never posts a negative saving increase |
| AccrualFacts.OverdrawnSavingsShrink | app/api/allowance/run/route.ts:43-57 | over a non-negative week count, a negative principal at a non-negative rate posts a saving increase that is not positive |
| AccrualFacts.NegativeWeeksReverseGrowth | app/api/allowance/run/route.ts:43-57 | over a negative week count at a non-negative rate, the saving growth is finite and its sign is reversed: not positive for a non-negative principal, not negative for an overdrawn one |
| AccrualFacts.SavingExample | app/api/allowance/run/route.ts:45-57 | 10000 cents at 2000 basis points for one week earns 38 cents |
| AccrualFacts.FlatAccrualIsAdditive | app/api/allowance/run/route.ts:59-63 | SPENDING and GIVING for a+b weeks equal the sums for a weeks and for b weeks, for every week counts with a defined allowance, negative ones included |
| AccrualFacts.MissingSettingSkips | app/api/allowance/run/route.ts:132-136 | a user with no applicable setting in some category is skipped, with the store unchanged |
| AccrualFacts.DueUserIsPaidLumpSum | app/api/allowance/run/route.ts:115-193 | from any store, a user with a family, past the rate limit, with a non-zero week count, all three settings and finite saving growth is paid in one commit: the weeks of its plan times its latest SPENDING and GIVING amounts, and the saving growth of its first family's principal |
| AccrualFacts.DueWeeksPositiveWhenStartNotFuture | app/api/allowance/run/route.ts:126-129 | a due user whose start date is not in the future is paid at least one week |
| AccrualFacts.FutureStartGivesNegativeWeeks | app/api/allowance/run/route.ts:126-129 | a start date after now gives a negative week count, which the zero-only guard lets through |
| AccrualFacts.ThirteenDaysIsOneWeek | app/api/allowance/run/route.ts:127 | thirteen elapsed days count as exactly one week |
| AccrualFacts.PrincipalAfterPosting | app/api/allowance/run/route.ts:161-172 | after a post, the principal of the user's paid family grows by exactly the posted saving amount, and every other principal is unchanged |
| AccrualFacts.NoSecondPaymentWithinAWeek | app/api/allowance/run/route.ts:120-129 | after a post at now, a step for the same user less than a week later changes nothing; it is rate-limited within 12 hours and has nothing due after that |
| AccrualFacts.ImmediateRerunIsRateLimited | app/api/allowance/run/route.ts:120-124 | re-running the same user at the same instant after a post is skipped by the rate limit |
| Batch.StepGrows | app/api/allowance/run/route.ts:148-193 | one step only appends system rows dated now for this user, and only when the user is not failing |
| Batch.GrowsByChain | app/api/allowance/run/route.ts:115-213 | ledger growth by the head user followed by growth by the rest is growth by the whole list |
| Batch.Record | app/api/allowance/run/route.ts:195-212 | a post adds one result for the user, a failure adds one log entry, a skip adds nothing |
| BatchFacts.RecordKeepsTail | app/api/allowance/run/route.ts:195-209 | after the new head entry, the results and logs are exactly those recorded before, in the same order |
| Batch.RunAll | app/api/allowance/run/route.ts:115-213 | the loop keeps the user set, memberships and settings; it makes at most as many entries as there are listed users, and logs only listed users |
| Batch.RunAllAppendsOnlyPaidRows | app/api/allowance/run/route.ts:115-213 | the loop only appends system rows dated now, each owned by a listed user whose step did not fail, and reports as paid only such users |
| Batch.RunAllKeepsWf | app/api/allowance/run/route.ts:115-213 | the loop keeps transaction ids unique and below the counter |
| Batch.RunEndpoint | app/api/allowance/run/route.ts:66-221 | unauthorised exactly when in production without the configured bearer secret, with no change; otherwise success, with the store, results and logs of the batch over the queried users, processedCount equal to the number of results, and totalUsers equal to the number of users with settings |
| BatchFacts.SettledAfterOwnStep | app/api/allowance/run/route.ts:185-192 | after its own step, whatever the outcome, a further step for the user at the same instant under the same storage failures would not post |
| BatchFacts.FailedCommitRetriedAtOnce | app/api/allowance/run/route.ts:148-192 | a failed commit leaves the last attempt unrecorded, so a retry at the same instant whose commit succeeds posts |
| BatchFacts.PlanFrame | app/api/allowance/run/route.ts:115-136 | a user's plan depends only on its own record, the memberships and the settings |
| BatchFacts.StepKeepsOtherPlans | app/api/allowance/run/route.ts:115-193 | one user's step leaves every other user's plan unchanged |
| BatchFacts.RunAllKeepsOthers | app/api/allowance/run/route.ts:115-213 | the batch leaves the record of every user outside the list unchanged |
| BatchFacts.RunAllReportsEachUser | app/api/allowance/run/route.ts:195-212 | over distinct users, each listed user is in the results exactly when its step would post and in the logs exactly when it was due but failed; nobody appears twice in either list |
| BatchFacts.RunAllReportsPlannedWeeks | app/api/allowance/run/route.ts:195-201 | every result names a due user and carries the week count of its plan |
| BatchFacts.RunAllSettles | app/api/allowance/run/route.ts:115-213 | after the batch, no listed user would be paid again at the same instant under the same storage failures |
| BatchFacts.RunAllOnSettled | app/api/allowance/run/route.ts:115-213 | a batch over users who would not post changes nothing and reports no result |
| BatchFacts.BatchRerunPostsNothing | app/api/allowance/run/route.ts:115-221 | running the batch twice at the same instant with the same failures: the second run changes nothing and reports no paid user |
| BatchFacts.FailingUserUntouched | app/api/allowance/run/route.ts:205-212 | a user whose step does not post, whether it fails on storage, fails on a non-finite saving amount or is skipped, keeps its run-state and gains no rows while the batch carries on |
| Harness.ResetUser | app/api/allowance/test/route.ts:28-44 | the user's system rows are removed and every other row kept; its last run is rewound by exactly the given weeks, the attempt cleared and the count zeroed; other users, memberships and settings are unchanged; ids stay unique |
| Harness.Simulate | app/api/allowance/test/route.ts:9-64 | 403 outside development and 400 without a user id, both with no change; an unknown user fails after its system rows are deleted; a known user is reset and the batch is run, with the weeks defaulting to 1 |
| HarnessFacts.ResetThenRunCountsWeeks | app/api/allowance/test/route.ts:36-44 | after a reset by any w, a run within the next week is not rate-limited and counts exactly w weeks |
| HarnessFacts.ResetThenRunPaysWeeks | app/api/allowance/test/route.ts:36-44 | after a reset by w of at least 1, a user with a family and all three settings is paid w weeks of SPENDING and GIVING |
| HarnessFacts.ResetByZeroPaysNothing | app/api/allowance/test/route.ts:36-44 | a reset by zero weeks followed by a run in the same week pays nothing |
| HarnessFacts.ResetByNegativeWeeksPostsNegative | app/api/allowance/test/route.ts:36-44 | after a reset by a negative count, a user with a family, all three settings and a finite saving growth is still paid: w weeks and a negative SPENDING amount for a positive setting |
| TestTransactions.BuildRows | app/api/test-transactions/route.ts:49-65 | one row per pair of week index and effective setting, week-major, copying the setting's category and amount, dated back seven days per week, with consecutive ids |
| TestTransactions.InsertRows | app/api/test-transactions/route.ts:67-69 | the bulk insert appends exactly weeks times settings rows after the existing ledger and preserves id uniqueness |
| TestTransactions.Generate | app/api/test-transactions/route.ts:7-79 | each response is returned exactly when its check is the first to fail, in the source's order, and an error changes nothing. Success happens exactly when every check passes and the insert succeeds; it then creates weeks times settings rows in the target's first family, from that family's latest settings |
| Deletion.RoleIn | app/actions.ts:14-31 | the caller's role in the row's family comes from its first membership row there in store order; none exactly when it has none |
| Deletion.DeleteTransaction | app/actions.ts:10-40 | each outcome is an exact condition, checked in the source's order: not signed in, then "Transaction not found", then "Not authorized" for a caller who is neither a parent of the row's family nor its creator, else success; on success exactly that row is removed, and ids stay unique |
| Deletion.RemoveAtKeepsWf | app/actions.ts:38 | removing one row keeps ids unique and keeps exactly the rows with another id |
| Deletion.DeletingSavingRowLowersPrincipal | app/actions.ts:38 | deleting a SAVING row lowers the principal of its owner and family by its amount |
| Deletion.OwnAllowanceRowsDeletable | app/actions.ts:31-36 | a signed-in user may delete a system row it created, such as its own allowance rows, without being a parent |
| Format.DigitChar | lib/utils.ts:9 | the digit character of d reads back as d |
| Format.NatToDecimal | lib/utils.ts:9 | a numeral is non-empty, all digits, and has no leading zero |
| Format.DecimalRoundTrip | lib/utils.ts:9 | reading back the numeral of n gives n |
| Format.CentsText | lib/utils.ts:9 | the text after the symbol ends in a '.' followed by two digits and has no leading zero |
| Format.CentsTextParses | lib/utils.ts:9 | the cents text reads back as the cents it was built from |
| Format.FormatAmount | lib/utils.ts:8-11 | the symbol comes first, then the dollars with no leading zero, a '.', and two digits; reading back gives the absolute amount in cents |
| Format.FormatAmountIgnoresSign | lib/utils.ts:9 | an amount and its negation print the same |
| Format.FormatAmountDeterminesMagnitude | lib/utils.ts:8-11 | two amounts print the same exactly when their magnitudes are equal |
| Format.FormatAmountExamples | lib/utils.ts:8-11 | 1234 cents print as "$12.34" and -5 cents as "$0.05" |
| Username.MatchesPatternIff | app/signup/UsernameForm.tsx:14 | the pattern matches exactly a non-empty string of letters, digits and underscores |
| Username.UsernameAcceptedIff | app/signup/UsernameForm.tsx:13-16 | the schema accepts exactly 3 to 20 characters, all letters, digits or underscores |
| Username.EmptyUsernameIssues | app/signup/UsernameForm.tsx:13-16 | the empty name fails both the minimum length and the pattern |
| Username.OnUsernameChange | app/signup/UsernameForm.tsx:39-46 | the server is asked exactly when the value has at least 3 characters; otherwise availability is unknown, else it is the server's answer |
| Username.SubmitEnabledIff | app/signup/UsernameForm.tsx:65 | submit is enabled exactly when availability is true and nothing is loading |
| Username.SubmissionNeedsValidAvailableName | app/signup/UsernameForm.tsx:39-65 | after a change, a click submits exactly when the server said available, nothing loads, and the name is 3 to 20 allowed characters |

## Left out

- Prisma, Next.js and React plumbing is not modelled: responses are datatypes and not JSON, and neither `revalidatePath` nor console logging appears. The user lookup of the run endpoint is an input list (`IsUserQuery`).
- The run endpoint's outer 500 response (the user query itself throwing) is not modelled. Per-user errors are modelled as logs.
- IEEE-754 arithmetic is left out: the saving growth is computed on exact reals, so a rounding step in JavaScript that differs by one ulp at a `.5` boundary is not reflected. The reading `Floor(x + 0.5)` of `Math.round` is the model's.
- Concurrency between overlapping runs is not modelled; steps happen one after another.
- Calendar effects are not modelled: the generator's `setDate(getDate() - 7*week)` is a fixed 7*24 hours, so daylight-saving shifts are not reflected.
- Authentication is an input. The generator's session is taken as already resolved to its user, so the lookup by e-mail is not modelled.
- Request bodies are typed: `weeks` and `weeksToSimulate` are integers, so JavaScript values such as `2.5` or strings are not modelled.
- The username length is counted in characters, not UTF-16 code units.
- The harness's HTTP call to the run endpoint is a direct call with the same environment; a failing fetch and the 500 it causes are not modelled.
- Settings.LatestPerCategory: lists the effective settings in category order SPENDING, SAVING, GIVING, while the source's query orders them by `createdAt` descending (app/api/test-transactions/route.ts:39-40). So within one week the generator's rows follow category order in the model and recency order in the source. Their contents and the count are the same.
- Format.FormatAmount: does not model `toFixed` on doubles for amounts near or above 2^53 cents, or exponent notation, because cents are read as exact integers.
- Batch.RunEndpoint: states the contents of `results` and `logs` only as those of Batch.RunAll. What they mean for each user is stated by BatchFacts.RunAllReportsEachUser and BatchFacts.RunAllReportsPlannedWeeks.
- Harness.Simulate: does not state the allowance rows of a simulated run directly, because they follow from Batch.RunAll on the reset store and from HarnessFacts.ResetThenRunPaysWeeks.
- Username.OnUsernameChange: does not model a rejected availability check, which leaves the previous availability in place, nor answers arriving out of order, which can leave a stale one, because the model takes each change with its answer as one atomic event.
- A paid user's entry in `results`: the source reports each paid user's whole commit, the three rows followed by the updated user record. The model's result holds the three rows, and the updated user is the one in the resulting store.
- The `Period` and `isPercentage` fields of a setting are carried but not used, as in the engine.

=== FILE: accrual.dfy ===
/**
 * The allowance accrual engine's per-user step (`app/api/allowance/run/route.ts`).
 *
 * For one user and one clock reading `now` the step either skips the user,
 * leaving the store untouched, or appends one SPENDING, one SAVING and one
 * GIVING row and advances the user's run-state, all in one commit.
 * SPENDING and GIVING accrue a flat weekly amount; SAVING compounds weekly on
 * the principal recomputed from the ledger. The saving growth is computed on
 * exact reals with `Math.round` read as `Floor(x + 0.5)`.
 */
module Accrual {
  import opened Domain
  import opened Settings
  import opened Ledger

  /** Minimum gap between two attempts for the same user. */
  const MinHoursBetweenRuns: int := 12

  /** `(now - t) / (60 * 60 * 1000)`: the hours since `t`, unrounded. */
  function HoursSince(now: Millis, t: Millis): real {
    (now - t) as real / MsPerHour as real
  }

  /** The user attempted a run less than twelve hours before `now`. */
  predicate RateLimited(u: User, now: Millis) {
    u.lastAllowanceAttempt.Some? && HoursSince(now, u.lastAllowanceAttempt.value) < MinHoursBetweenRuns as real
  }

  /** The instant accrual counts from: the last successful run, else account creation. */
  function StartDate(u: User): Millis {
    u.lastAllowanceRun.GetOr(u.createdAt)
  }

  /** Whole weeks elapsed from `start` to `now`, rounded toward negative infinity. */
  function WeeksToRun(now: Millis, start: Millis): (w: int)
    ensures w * MsPerWeek <= now - start < (w + 1) * MsPerWeek
  {
    (now - start) / MsPerWeek
  }

  /** `b` raised to a natural power. */
  function PowNat(b: real, n: nat): (r: real)
    ensures b != 0.0 ==> r != 0.0
    ensures b >= 1.0 ==> r >= 1.0
  {
    if n == 0 then 1.0
    else
      var p := PowNat(b, n - 1);
      assert b >= 1.0 ==> b * p >= p;
      b * p
  }

  /** `Math.pow(b, n)` for an integer exponent; a negative power of zero is excluded. */
  function Pow(b: real, n: int): real
    requires n >= 0 || b != 0.0
  {
    if n >= 0 then PowNat(b, n) else 1.0 / PowNat(b, -n)
  }

  /** `Math.round`: the nearest integer, halves rounded up. */
  function Round(x: real): (r: int)
    ensures r as real <= x + 0.5 < r as real + 1.0
  {
    (x + 0.5).Floor
  }

  /** The weekly growth factor of a yearly rate given in basis points. */
  function WeeklyGrowth(basisPoints: int): real {
    1.0 + (basisPoints as real / 10000.0) / 52.0
  }

  /**
   * The growth is a finite number unless a zero growth factor is raised to a
   * negative power (JavaScript yields Infinity or NaN there, which the store
   * refuses to write into an integer column).
   */
  predicate GrowthDefined(basisPoints: int, weeks: int) {
    weeks >= 0 || WeeklyGrowth(basisPoints) != 0.0
  }

  /** `round(P * (1 + bp/10000/52)^weeks - P)`, or `None` when it is not finite. */
  function SavingIncrease(principal: int, basisPoints: int, weeks: int): (r: Option<int>)
    ensures r.Some? <==> GrowthDefined(basisPoints, weeks)
  {
    if !GrowthDefined(basisPoints, weeks) then None
    else
      var finalAmount := principal as real * Pow(WeeklyGrowth(basisPoints), weeks);
      Some(Round(finalAmount - principal as real))
  }

  datatype Allowance = Allowance(spending: int, saving: int, giving: int)

  /** `calculateWeeklyAllowance`: the three amounts to post for `weeks` weeks. */
  function CalculateWeeklyAllowance(spendingAmount: int, savingPercent: int, givingAmount: int,
                                    weeks: int, principal: int): (r: Option<Allowance>)
    ensures r.Some? <==> GrowthDefined(savingPercent, weeks)
  {
    var saving := SavingIncrease(principal, savingPercent, weeks);
    if saving.None? then None
    else Some(Allowance(spendingAmount * weeks, saving.value, givingAmount * weeks))
  }

  /** Why a user was passed over; the source `continue`s silently in every case. */
  datatype SkipReason = NoFamily | RecentAttempt | NothingDue | MissingSetting

  /** The eligibility decision for one user at one instant. */
  datatype Plan =
    | Skip(reason: SkipReason)
    | Due(familyId: FamilyId, weeks: int, spending: Setting, saving: Setting, giving: Setting)

  /** Every category has an applicable setting for the user, in any family. */
  predicate HasEverySetting(s: State, uid: UserId) {
    && Latest(s.settings, uid, AllFamilies, SPENDING).Some?
    && Latest(s.settings, uid, AllFamilies, SAVING).Some?
    && Latest(s.settings, uid, AllFamilies, GIVING).Some?
  }

  /**
   * The short-circuiting eligibility checks, in the source's order:
   * membership, rate limit, whole weeks elapsed, all three settings.
   */
  function PlanFor(s: State, uid: UserId, now: Millis): (p: Plan)
    requires uid in s.users
    ensures p == Skip(NoFamily) <==> forall i :: 0 <= i < |s.members| ==> s.members[i].userId != uid
    ensures p.Due? ==> FirstMembership(s.members, uid) == Some(FamilyMember(uid, p.familyId, FirstMembership(s.members, uid).value.role))
    ensures p.Due? ==> !RateLimited(s.users[uid], now)
    ensures p.Due? ==> p.weeks != 0 && p.weeks * MsPerWeek <= now - StartDate(s.users[uid]) < (p.weeks + 1) * MsPerWeek
    ensures p.Due? ==> && IsLatest(s.settings, uid, AllFamilies, SPENDING, p.spending)
                       && IsLatest(s.settings, uid, AllFamilies, SAVING, p.saving)
                       && IsLatest(s.settings, uid, AllFamilies, GIVING, p.giving)
    ensures p == Skip(MissingSetting) ==>
              || (forall i :: 0 <= i < |s.settings| ==> !Applies(s.settings[i], uid, AllFamilies, SPENDING))
              || (forall i :: 0 <= i < |s.settings| ==> !Applies(s.settings[i], uid, AllFamilies, SAVING))
              || (forall i :: 0 <= i < |s.settings| ==> !Applies(s.settings[i], uid, AllFamilies, GIVING))
  {
    var u := s.users[uid];
    var fm := FirstMembership(s.members, uid);
    if fm.None? then Skip(NoFamily)
    else if RateLimited(u, now) then Skip(RecentAttempt)
    else
      var weeks := WeeksToRun(now, StartDate(u));
      if weeks == 0 then Skip(NothingDue)
      else
        var sp := Latest(s.settings, uid, AllFamilies, SPENDING);
        var sa := Latest(s.settings, uid, AllFamilies, SAVING);
        var gi := Latest(s.settings, uid, AllFamilies, GIVING);
        if sp.None? || sa.None? || gi.None? then Skip(MissingSetting)
        else Due(fm.value.familyId, weeks, sp.value, sa.value, gi.value)
  }

  /**
   * The checks of `PlanFor` decide its outcome in the source's order: each
   * skip reason holds exactly when its check is the first to fail, and a user
   * passing all four checks is due.
   */
  lemma PlanForFollowsChecks(s: State, uid: UserId, now: Millis)
    requires uid in s.users
    ensures PlanFor(s, uid, now) == Skip(RecentAttempt) <==> FirstMembership(s.members, uid).Some? && RateLimited(s.users[uid], now)
    ensures PlanFor(s, uid, now) == Skip(NothingDue) <==>
              && FirstMembership(s.members, uid).Some? && !RateLimited(s.users[uid], now)
              && WeeksToRun(now, StartDate(s.users[uid])) == 0
    ensures PlanFor(s, uid, now) == Skip(MissingSetting) <==>
              && FirstMembership(s.members, uid).Some? && !RateLimited(s.users[uid], now)
              && WeeksToRun(now, StartDate(s.users[uid])) != 0
              && !HasEverySetting(s, uid)
    ensures PlanFor(s, uid, now).Due? <==>
              && FirstMembership(s.members, uid).Some? && !RateLimited(s.users[uid], now)
              && WeeksToRun(now, StartDate(s.users[uid])) != 0
              && HasEverySetting(s, uid)
  {
  }

  /** The step posts: the user is due, the saving growth is finite and the commit succeeds. */
  predicate WillPost(p: Plan, commitFails: bool) {
    p.Due? && GrowthDefined(p.saving.amount, p.weeks) && !commitFails
  }

  /** The run-state after a successful commit. */
  function Advance(u: User, now: Millis): User {
    u.(lastAllowanceRun := Some(now), lastAllowanceAttempt := Some(now),
       allowanceRunCount := u.allowanceRunCount + 1)
  }

  /** One system-created allowance row. */
  function AllowanceRow(id: TxId, uid: UserId, family: FamilyId, c: Category,
                        amount: int, weeks: int, now: Millis): Transaction {
    Transaction(id, uid, uid, family, c, amount, AllowanceNote(c, weeks), now, true)
  }

  datatype RunError = AmountNotFinite | CommitFailed

  datatype Outcome =
    | Skipped(reason: SkipReason)
    | Posted(weeks: int, rows: seq<Transaction>)
    | Failed(error: RunError)

  datatype Step = Step(state: State, outcome: Outcome)

  /**
   * The rows of a successful step: three system rows dated `now`, owned and
   * created by the user, attributed to the first family, with fresh ids, in
   * the order SPENDING, SAVING, GIVING.
   */
  ghost predicate RowsPostedFor(s: State, uid: UserId, now: Millis, p: Plan, rows: seq<Transaction>)
    requires p.Due?
  {
    && |rows| == 3
    && rows[0].category == SPENDING && rows[1].category == SAVING && rows[2].category == GIVING
    && rows[0].amount == p.spending.amount * p.weeks
    && rows[2].amount == p.giving.amount * p.weeks
    && Some(rows[1].amount) == SavingIncrease(Principal(s.ledger, uid, p.familyId), p.saving.amount, p.weeks)
    && forall k :: 0 <= k < 3 ==>
         && rows[k].id == s.nextId + k
         && rows[k].date == now
         && rows[k].isSystemCreated
         && rows[k].ownerId == uid
         && rows[k].createdById == uid
         && rows[k].familyId == p.familyId
         && rows[k].description == AllowanceNote(rows[k].category, p.weeks)
  }

  /** The three rows of one commit, with consecutive fresh ids from `firstId`. */
  function AllowanceRows(firstId: TxId, uid: UserId, family: FamilyId, a: Allowance,
                         weeks: int, now: Millis): (rows: seq<Transaction>)
    ensures |rows| == 3
    ensures rows[0].category == SPENDING && rows[1].category == SAVING && rows[2].category == GIVING
    ensures rows[0].amount == a.spending && rows[1].amount == a.saving && rows[2].amount == a.giving
    ensures forall k :: 0 <= k < 3 ==>
              && rows[k].id == firstId + k
              && rows[k].date == now
              && rows[k].isSystemCreated
              && rows[k].ownerId == uid
              && rows[k].createdById == uid
              && rows[k].familyId == family
              && rows[k].description == AllowanceNote(rows[k].category, weeks)
  {
    [ AllowanceRow(firstId, uid, family, SPENDING, a.spending, weeks, now),
      AllowanceRow(firstId + 1, uid, family, SAVING, a.saving, weeks, now),
      AllowanceRow(firstId + 2, uid, family, GIVING, a.giving, weeks, now) ]
  }

  /** Appending rows with ids at or above `nextId`, distinct among themselves, keeps ids unique. */
  lemma AppendFreshKeepsWf(s: State, rows: seq<Transaction>, n: nat)
    requires Wf(s)
    requires |rows| == n
    requires forall k :: 0 <= k < n ==> rows[k].id == s.nextId + k
    ensures Wf(s.(ledger := s.ledger + rows, nextId := s.nextId + n))
  {
    var l := s.ledger + rows;
    forall i | 0 <= i < |l| ensures l[i].id < s.nextId + n && (i < |s.ledger| ==> l[i].id < s.nextId) && (i >= |s.ledger| ==> l[i].id == s.nextId + (i - |s.ledger|)) {
      if i >= |s.ledger| { assert l[i] == rows[i - |s.ledger|]; }
    }
  }

  /**
   * The per-user body of the run endpoint. `commitFails` stands for a storage
   * error during the aggregate query or the commit; either rolls back entirely.
   */
  function RunUser(s: State, uid: UserId, now: Millis, commitFails: bool): (r: Step)
    requires uid in s.users
    ensures r.outcome.Posted? <==> WillPost(PlanFor(s, uid, now), commitFails)
    ensures r.outcome.Skipped? <==> PlanFor(s, uid, now).Skip?
    ensures r.outcome.Skipped? ==> r.outcome.reason == PlanFor(s, uid, now).reason
    ensures !r.outcome.Posted? ==> r.state == s
    ensures r.outcome.Posted? ==>
              && r.outcome.weeks == PlanFor(s, uid, now).weeks
              && RowsPostedFor(s, uid, now, PlanFor(s, uid, now), r.outcome.rows)
              && r.state == s.(users := s.users[uid := Advance(s.users[uid], now)],
                               ledger := s.ledger + r.outcome.rows,
                               nextId := s.nextId + 3)
  {
    var p := PlanFor(s, uid, now);
    if p.Skip? then Step(s, Skipped(p.reason))
    else
      var allowance := CalculateWeeklyAllowance(p.spending.amount, p.saving.amount, p.giving.amount,
                                                p.weeks, Principal(s.ledger, uid, p.familyId));
      if allowance.None? then Step(s, Failed(AmountNotFinite))
      else if commitFails then Step(s, Failed(CommitFailed))
      else
        var rows := AllowanceRows(s.nextId, uid, p.familyId, allowance.value, p.weeks, now);
        var s' := s.(users := s.users[uid := Advance(s.users[uid], now)],
                     ledger := s.ledger + rows,
                     nextId := s.nextId + 3);
        Step(s', Posted(p.weeks, rows))
  }

  /**
   * A failed step names its cause: a non-finite saving amount exactly when a
   * due user's growth is not finite, a commit failure exactly when the
   * growth is finite but the commit fails.
   */
  lemma RunUserErrorKinds(s: State, uid: UserId, now: Millis, commitFails: bool)
    requires uid in s.users
    ensures var r := RunUser(s, uid, now, commitFails);
            var p := PlanFor(s, uid, now);
            && (r.outcome == Failed(AmountNotFinite) <==> p.Due? && !GrowthDefined(p.saving.amount, p.weeks))
            && (r.outcome == Failed(CommitFailed) <==> p.Due? && GrowthDefined(p.saving.amount, p.weeks) && commitFails)
  {
  }

  /** A step keeps transaction ids unique and below the counter. */
  lemma RunUserKeepsWf(s: State, uid: UserId, now: Millis, commitFails: bool)
    requires uid in s.users && Wf(s)
    ensures Wf(RunUser(s, uid, now, commitFails).state)
  {
    var r := RunUser(s, uid, now, commitFails);
    if r.outcome.Posted? {
      AppendFreshKeepsWf(s, r.outcome.rows, 3);
    }
  }
}

=== FILE: accrual_facts.dfy ===
/**
 * Properties of the accrual engine's per-user step: the arithmetic of the
 * three categories, the rate limit, whole-week truncation, and the absence of
 * a second payment shortly after a successful one.
 */
module AccrualFacts {
  import opened Domain
  import opened Settings
  import opened Ledger
  import opened Accrual

  /**
   * Lump-sum payment from any store: a user with a family, past the rate
   * limit, with a non-zero week count and all three settings, whose saving
   * growth is finite and whose commit succeeds, is paid exactly that many
   * weeks of its latest SPENDING and GIVING amounts and the saving growth of
   * its first family's principal.
   */
  lemma DueUserIsPaidLumpSum(s: State, uid: UserId, now: Millis)
    requires uid in s.users
    requires FirstMembership(s.members, uid).Some?
    requires !RateLimited(s.users[uid], now)
    requires WeeksToRun(now, StartDate(s.users[uid])) != 0
    requires HasEverySetting(s, uid)
    requires GrowthDefined(Latest(s.settings, uid, AllFamilies, SAVING).value.amount,
                           WeeksToRun(now, StartDate(s.users[uid])))
    ensures var w := WeeksToRun(now, StartDate(s.users[uid]));
            var family := FirstMembership(s.members, uid).value.familyId;
            var r := RunUser(s, uid, now, false);
            && r.outcome.Posted?
            && r.outcome.weeks == w
            && r.outcome.rows[0].amount == Latest(s.settings, uid, AllFamilies, SPENDING).value.amount * w
            && Some(r.outcome.rows[1].amount)
               == SavingIncrease(Principal(s.ledger, uid, family), Latest(s.settings, uid, AllFamilies, SAVING).value.amount, w)
            && r.outcome.rows[2].amount == Latest(s.settings, uid, AllFamilies, GIVING).value.amount * w
            && forall k :: 0 <= k < 3 ==> r.outcome.rows[k].familyId == family && r.outcome.rows[k].ownerId == uid
  {
    var p := PlanFor(s, uid, now);
    assert p.Due?;
    assert p.weeks == WeeksToRun(now, StartDate(s.users[uid]));
    assert p.familyId == FirstMembership(s.members, uid).value.familyId;
  }

  /** The rate limit compares hours as a real number; in milliseconds it is a 12-hour window. */
  lemma RateLimitedInMillis(u: User, now: Millis)
    ensures RateLimited(u, now) <==>
              u.lastAllowanceAttempt.Some? && now - u.lastAllowanceAttempt.value < 12 * MsPerHour
  {
  }

  /** Helper for `ZeroRateEarnsNothing`: every power of one is one. */
  lemma {:induction false} PowNatOfOne(n: nat)
    ensures PowNat(1.0, n) == 1.0
  {
    if n > 0 {
      PowNatOfOne(n - 1);
    }
  }

  /** Starting from zero principal, any rate over any number of weeks earns nothing. */
  lemma ZeroPrincipalEarnsNothing(basisPoints: int, weeks: int)
    requires GrowthDefined(basisPoints, weeks)
    ensures SavingIncrease(0, basisPoints, weeks) == Some(0)
  {
  }

  /** A zero rate earns nothing on any principal. */
  lemma ZeroRateEarnsNothing(principal: int, weeks: int)
    ensures SavingIncrease(principal, 0, weeks) == Some(0)
  {
    assert WeeklyGrowth(0) == 1.0;
    if weeks >= 0 {
      PowNatOfOne(weeks);
    } else {
      PowNatOfOne(-weeks);
    }
  }

  /** With a non-negative rate, a non-negative principal never shrinks over elapsed weeks. */
  lemma SavingGrowthNonNegative(principal: int, basisPoints: int, weeks: int)
    requires principal >= 0 && basisPoints >= 0 && weeks >= 0
    ensures SavingIncrease(principal, basisPoints, weeks).Some?
    ensures SavingIncrease(principal, basisPoints, weeks).value >= 0
  {
    var g := WeeklyGrowth(basisPoints);
    assert g >= 1.0;
    var x := PowNat(g, weeks);
    assert x >= 1.0;
    var p := principal as real;
    assert p * x - p == p * (x - 1.0);
    assert p * (x - 1.0) >= 0.0;
  }

  /** An overdrawn (negative) SAVING balance is charged interest: the posted increase is not positive. */
  lemma OverdrawnSavingsShrink(principal: int, basisPoints: int, weeks: int)
    requires principal <= 0 && basisPoints >= 0 && weeks >= 0
    ensures SavingIncrease(principal, basisPoints, weeks).Some?
    ensures SavingIncrease(principal, basisPoints, weeks).value <= 0
  {
    var g := WeeklyGrowth(basisPoints);
    var x := PowNat(g, weeks);
    assert x >= 1.0;
    var p := principal as real;
    assert p * x - p == p * (x - 1.0);
    assert p * (x - 1.0) <= 0.0;
  }

  /**
   * A negative week count (a start date in the future) reverses the growth:
   * at a non-negative rate a non-negative principal posts an increase that is
   * not positive, and an overdrawn one an increase that is not negative.
   */
  lemma NegativeWeeksReverseGrowth(principal: int, basisPoints: int, weeks: int)
    requires basisPoints >= 0 && weeks < 0
    ensures SavingIncrease(principal, basisPoints, weeks).Some?
    ensures principal >= 0 ==> SavingIncrease(principal, basisPoints, weeks).value <= 0
    ensures principal <= 0 ==> SavingIncrease(principal, basisPoints, weeks).value >= 0
  {
    var g := WeeklyGrowth(basisPoints);
    assert g >= 1.0;
    var x := PowNat(g, -weeks);
    assert x >= 1.0;
    var y := 1.0 / x;
    assert y * x == 1.0;
    assert 0.0 < y <= 1.0;
    assert Pow(g, weeks) == y;
    var p := principal as real;
    assert p * y - p == p * (y - 1.0);
    if principal >= 0 {
      assert p * (y - 1.0) <= 0.0;
    }
    if principal <= 0 {
      assert p * (y - 1.0) >= 0.0;
    }
  }

  /** 100.00 at 20% a year for one week grows by 38 cents. */
  lemma SavingExample()
    ensures SavingIncrease(10000, 2000, 1) == Some(38)
  {
    var g := WeeklyGrowth(2000);
    assert g == 1.0 + 1.0 / 260.0;
    assert Pow(g, 1) == g * PowNat(g, 0) == g;
    var x := 10000.0 * g - 10000.0;
    assert x == 500.0 / 13.0;
    var r := Round(x);
    assert r as real <= 500.0 / 13.0 + 0.5 < r as real + 1.0;
    assert r == 38;
  }

  /**
   * SPENDING and GIVING do not compound: a lump sum for `a + b` weeks equals
   * the payments for `a` weeks and for `b` weeks added, for every week count
   * with a defined allowance, negative ones included.
   */
  lemma FlatAccrualIsAdditive(spending: int, savingPercent: int, giving: int, principal: int, a: int, b: int)
    requires GrowthDefined(savingPercent, a) && GrowthDefined(savingPercent, b) && GrowthDefined(savingPercent, a + b)
    ensures var ab := CalculateWeeklyAllowance(spending, savingPercent, giving, a + b, principal).value;
            var pa := CalculateWeeklyAllowance(spending, savingPercent, giving, a, principal).value;
            var pb := CalculateWeeklyAllowance(spending, savingPercent, giving, b, principal).value;
            ab.spending == pa.spending + pb.spending && ab.giving == pa.giving + pb.giving
  {
  }

  /**
   * A user with no SPENDING, no SAVING or no GIVING setting is skipped: no
   * rows, no run-state change, nothing logged.
   */
  lemma MissingSettingSkips(s: State, uid: UserId, now: Millis, commitFails: bool, c: Category)
    requires uid in s.users
    requires forall i :: 0 <= i < |s.settings| ==> !Applies(s.settings[i], uid, AllFamilies, c)
    ensures RunUser(s, uid, now, commitFails).outcome.Skipped?
    ensures RunUser(s, uid, now, commitFails).state == s
  {
  }

  /** A due user whose start date is not in the future has at least one whole week to run. */
  lemma DueWeeksPositiveWhenStartNotFuture(s: State, uid: UserId, now: Millis)
    requires uid in s.users
    requires PlanFor(s, uid, now).Due?
    requires StartDate(s.users[uid]) <= now
    ensures PlanFor(s, uid, now).weeks >= 1
  {
  }

  /**
   * The elapsed-weeks guard is an equality test: a start date in the future
   * gives a negative week count, which the guard lets through.
   */
  lemma FutureStartGivesNegativeWeeks(now: Millis, start: Millis)
    requires start > now
    ensures WeeksToRun(now, start) < 0
  {
  }

  /** Thirteen days elapsed is one whole week; the six leftover days are not paid. */
  lemma ThirteenDaysIsOneWeek(start: Millis)
    ensures WeeksToRun(start + 13 * MsPerDay, start) == 1
  {
  }

  /**
   * After a successful step the SAVING principal of the user's first family
   * has grown by exactly the posted saving increase; every other
   * (owner, family) principal is unchanged.
   */
  lemma PrincipalAfterPosting(s: State, uid: UserId, now: Millis, commitFails: bool, owner: UserId, family: FamilyId)
    requires uid in s.users
    requires RunUser(s, uid, now, commitFails).outcome.Posted?
    ensures var r := RunUser(s, uid, now, commitFails);
            var p := PlanFor(s, uid, now);
            Principal(r.state.ledger, owner, family)
              == Principal(s.ledger, owner, family)
                 + (if owner == uid && family == p.familyId then r.outcome.rows[1].amount else 0)
  {
    var r := RunUser(s, uid, now, commitFails);
    var rows := r.outcome.rows;
    PrincipalAppend(s.ledger, rows, owner, family);
    assert rows == [rows[0]] + ([rows[1]] + [rows[2]]);
    PrincipalAppend([rows[0]], [rows[1]] + [rows[2]], owner, family);
    PrincipalAppend([rows[1]], [rows[2]], owner, family);
  }

  /**
   * No double pay: once a step has posted at `now`, a step for the same user
   * at any instant less than a week later posts nothing and changes nothing.
   * Within twelve hours the rate limit stops it; after that no whole week
   * has elapsed since the new start date.
   */
  lemma NoSecondPaymentWithinAWeek(s: State, uid: UserId, now: Millis, later: Millis, fails1: bool, fails2: bool)
    requires uid in s.users
    requires RunUser(s, uid, now, fails1).outcome.Posted?
    requires later < now + MsPerWeek
    ensures var s1 := RunUser(s, uid, now, fails1).state;
            RunUser(s1, uid, later, fails2) == Step(s1, Skipped(if later - now < 12 * MsPerHour then RecentAttempt else NothingDue))
  {
    var s1 := RunUser(s, uid, now, fails1).state;
    var u1 := s1.users[uid];
    assert u1 == Advance(s.users[uid], now);
    assert FirstMembership(s1.members, uid).Some?;
    RateLimitedInMillis(u1, later);
    if later - now >= 12 * MsPerHour {
      assert WeeksToRun(later, StartDate(u1)) == 0;
    }
  }

  /** The immediate re-run at the same clock reading is skipped by the rate limit. */
  lemma ImmediateRerunIsRateLimited(s: State, uid: UserId, now: Millis, fails1: bool, fails2: bool)
    requires uid in s.users
    requires RunUser(s, uid, now, fails1).outcome.Posted?
    ensures var s1 := RunUser(s, uid, now, fails1).state;
            RunUser(s1, uid, now, fails2) == Step(s1, Skipped(RecentAttempt))
  {
    NoSecondPaymentWithinAWeek(s, uid, now, now, fails1, fails2);
  }
}

=== FILE: batch.dfy ===
/**
 * The run endpoint (`POST` of `app/api/allowance/run/route.ts`): the
 * production authorisation gate, then the per-user step over every user that
 * has at least one allowance setting, with per-user failures caught, logged
 * and not allowed to stop the batch.
 */
module Batch {
  import opened Domain
  import opened Accrual

  /**
   * One entry of `results`: a user that was paid. The source reports the
   * whole commit as `transactions`, i.e. the three created rows followed by
   * the updated user record; the model keeps the rows, and the user record
   * is the one in the resulting store.
   */
  datatype RunResult = RunResult(userId: UserId, weeksProcessed: int, rows: seq<Transaction>)

  /** One entry of `logs`: a user whose step threw (`success: false`). */
  datatype LogEntry = LogEntry(userId: UserId, error: RunError)

  datatype BatchRun = BatchRun(state: State, results: seq<RunResult>, logs: seq<LogEntry>)

  datatype Report = Report(success: bool, results: seq<RunResult>, processedCount: nat,
                           totalUsers: nat, logs: seq<LogEntry>)

  datatype RunResponse = Unauthorized | Completed(report: Report)

  predicate AllKnown(s: State, order: seq<UserId>) {
    forall i :: 0 <= i < |order| ==> order[i] in s.users
  }

  predicate Distinct(order: seq<UserId>) {
    forall i, j :: 0 <= i < j < |order| ==> order[i] != order[j]
  }

  predicate HasSetting(s: State, uid: UserId) {
    exists i :: 0 <= i < |s.settings| && s.settings[i].userId == uid
  }

  /**
   * `order` is what the user query returns: every user with at least one
   * setting, each once, in some store order.
   */
  predicate IsUserQuery(s: State, order: seq<UserId>) {
    && AllKnown(s, order)
    && Distinct(order)
    && (forall i :: 0 <= i < |order| ==> HasSetting(s, order[i]))
    && (forall uid :: uid in s.users && HasSetting(s, uid) ==> uid in order)
  }

  /** The store outside the users map and the ledger tail is untouched. */
  predicate SameShape(s: State, s': State) {
    && s'.users.Keys == s.users.Keys
    && s'.members == s.members
    && s'.settings == s.settings
  }

  /**
   * `l'` extends `l` with system rows dated `now`, each owned by a user of
   * `order` that is not in `failing`.
   */
  ghost predicate GrowsBy(l: seq<Transaction>, l': seq<Transaction>, now: Millis,
                          order: seq<UserId>, failing: set<UserId>) {
    && l <= l'
    && forall i :: |l| <= i < |l'| ==>
         && l'[i].isSystemCreated
         && l'[i].date == now
         && l'[i].ownerId in order
         && l'[i].ownerId !in failing
  }

  lemma StepGrows(s: State, uid: UserId, now: Millis, failing: set<UserId>)
    requires uid in s.users
    ensures var r := RunUser(s, uid, now, uid in failing);
            GrowsBy(s.ledger, r.state.ledger, now, [uid], failing) && SameShape(s, r.state)
  {
    var r := RunUser(s, uid, now, uid in failing);
    if r.outcome.Posted? {
      var rows := r.outcome.rows;
      forall i | |s.ledger| <= i < |r.state.ledger|
        ensures r.state.ledger[i] == rows[i - |s.ledger|]
      {
      }
    }
  }

  lemma GrowsByChain(a: seq<Transaction>, b: seq<Transaction>, c: seq<Transaction>, now: Millis,
                     order: seq<UserId>, failing: set<UserId>)
    requires |order| > 0
    requires GrowsBy(a, b, now, [order[0]], failing)
    requires GrowsBy(b, c, now, order[1..], failing)
    ensures GrowsBy(a, c, now, order, failing)
  {
    forall i | |a| <= i < |c| ensures c[i].ownerId in order {
      if i < |b| {
        assert c[i] == b[i];
      } else {
        var k :| 0 <= k < |order[1..]| && order[1..][k] == c[i].ownerId;
        assert order[k + 1] == c[i].ownerId;
      }
    }
  }

  /**
   * The loop over users, in query order. A user in `failing` hits a storage
   * error in its step.
   */
  function RunAll(s: State, order: seq<UserId>, now: Millis, failing: set<UserId>): (r: BatchRun)
    requires AllKnown(s, order)
    ensures SameShape(s, r.state)
    ensures |r.results| + |r.logs| <= |order|
    ensures forall j :: 0 <= j < |r.logs| ==> r.logs[j].userId in order
    decreases |order|
  {
    if |order| == 0 then BatchRun(s, [], [])
    else
      var uid := order[0];
      var step := RunUser(s, uid, now, uid in failing);
      assert AllKnown(step.state, order[1..]) by {
        forall i | 0 <= i < |order[1..]| ensures order[1..][i] in step.state.users {
          assert order[1..][i] == order[i + 1];
        }
      }
      Record(uid, step.outcome, RunAll(step.state, order[1..], now, failing))
  }

  /**
   * The batch only appends system rows dated `now`, each owned by a listed
   * user whose step did not fail, and it reports as paid only such users.
   */
  lemma {:induction false} RunAllAppendsOnlyPaidRows(s: State, order: seq<UserId>, now: Millis, failing: set<UserId>)
    requires AllKnown(s, order)
    ensures var r := RunAll(s, order, now, failing);
            && GrowsBy(s.ledger, r.state.ledger, now, order, failing)
            && forall j :: 0 <= j < |r.results| ==> r.results[j].userId in order && r.results[j].userId !in failing
    decreases |order|
  {
    if |order| > 0 {
      var uid := order[0];
      var tail := order[1..];
      var step := RunUser(s, uid, now, uid in failing);
      assert AllKnown(step.state, tail) by {
        forall i | 0 <= i < |tail| ensures tail[i] in step.state.users {
          assert tail[i] == order[i + 1];
        }
      }
      var rest := RunAll(step.state, tail, now, failing);
      var r := RunAll(s, order, now, failing);
      assert r == Record(uid, step.outcome, rest);
      RunAllAppendsOnlyPaidRows(step.state, tail, now, failing);
      StepGrows(s, uid, now, failing);
      GrowsByChain(s.ledger, step.state.ledger, rest.state.ledger, now, order, failing);
      forall j | 0 <= j < |r.results| ensures r.results[j].userId in order && r.results[j].userId !in failing {
        if r.results[j] in rest.results {
          var k :| 0 <= k < |rest.results| && rest.results[k] == r.results[j];
          var m :| 0 <= m < |tail| && tail[m] == rest.results[k].userId;
          assert order[m + 1] == r.results[j].userId;
        }
      }
    }
  }

  /** The batch keeps transaction ids unique and below the counter. */
  lemma {:induction false} RunAllKeepsWf(s: State, order: seq<UserId>, now: Millis, failing: set<UserId>)
    requires AllKnown(s, order) && Wf(s)
    ensures Wf(RunAll(s, order, now, failing).state)
    decreases |order|
  {
    if |order| > 0 {
      var uid := order[0];
      var step := RunUser(s, uid, now, uid in failing);
      RunUserKeepsWf(s, uid, now, uid in failing);
      assert AllKnown(step.state, order[1..]) by {
        forall i | 0 <= i < |order[1..]| ensures order[1..][i] in step.state.users {
          assert order[1..][i] == order[i + 1];
        }
      }
      RunAllKeepsWf(step.state, order[1..], now, failing);
    }
  }

  /** Adds one user's outcome to the front of the results or the logs. */
  function Record(uid: UserId, outcome: Outcome, rest: BatchRun): (r: BatchRun)
    ensures r.state == rest.state
    ensures |r.results| == |rest.results| + (if outcome.Posted? then 1 else 0)
    ensures |r.logs| == |rest.logs| + (if outcome.Failed? then 1 else 0)
    ensures outcome.Posted? ==> r.results[0] == RunResult(uid, outcome.weeks, outcome.rows)
    ensures !outcome.Posted? ==> r.results == rest.results
    ensures outcome.Failed? ==> r.logs[0] == LogEntry(uid, outcome.error)
    ensures !outcome.Failed? ==> r.logs == rest.logs
    ensures forall j :: 0 <= j < |r.results| ==> r.results[j] in rest.results || (outcome.Posted? && r.results[j].userId == uid)
    ensures forall j :: 0 <= j < |r.logs| ==> r.logs[j] in rest.logs || (outcome.Failed? && r.logs[j].userId == uid)
  {
    match outcome
    case Skipped(_) => rest
    case Posted(weeks, rows) =>
      BatchRun(rest.state, [RunResult(uid, weeks, rows)] + rest.results, rest.logs)
    case Failed(e) =>
      BatchRun(rest.state, rest.results, [LogEntry(uid, e)] + rest.logs)
  }

  /**
   * Outside production every call is accepted; in production the
   * `authorization` header must be `Bearer <secret>` and the secret must be set.
   */
  predicate Authorized(env: Env, authHeader: Option<string>, cronSecret: Option<string>) {
    env == Production ==> Truthy(cronSecret) && authHeader == Some("Bearer " + cronSecret.value)
  }

  /** The run endpoint: authorisation, then the batch and its summary. */
  function RunEndpoint(env: Env, authHeader: Option<string>, cronSecret: Option<string>,
                       s: State, order: seq<UserId>, now: Millis, failing: set<UserId>): (r: (State, RunResponse))
    requires IsUserQuery(s, order)
    ensures r.1.Unauthorized? <==> !Authorized(env, authHeader, cronSecret)
    ensures r.1.Unauthorized? ==> r.0 == s
    ensures r.1.Completed? ==>
              && r.1.report.success
              && r.1.report.processedCount == |r.1.report.results|
              && r.1.report.totalUsers == |order|
              && |r.1.report.results| + |r.1.report.logs| <= r.1.report.totalUsers
              && r.1.report.results == RunAll(s, order, now, failing).results
              && r.1.report.logs == RunAll(s, order, now, failing).logs
              && r.0 == RunAll(s, order, now, failing).state
    ensures Wf(s) ==> Wf(r.0)
  {
    if env == Production && (!Truthy(cronSecret) || authHeader != Some("Bearer " + cronSecret.value)) then
      (s, Unauthorized)
    else
      var b := RunAll(s, order, now, failing);
      assert Wf(s) ==> Wf(b.state) by {
        if Wf(s) { RunAllKeepsWf(s, order, now, failing); }
      }
      (b.state, Completed(Report(true, b.results, |b.results|, |order|, b.logs)))
  }
}

=== FILE: batch_facts.dfy ===
/**
 * Properties of the run endpoint's loop: users do not interfere with one
 * another, a storage failure leaves the failing user exactly as it was, and
 * re-running the whole batch at the same instant pays nobody twice.
 */
module BatchFacts {
  import opened Domain
  import opened Accrual
  import opened AccrualFacts
  import opened Batch

  /**
   * A further step for `u` at `now` would not post, under the same storage
   * failures `failing`. A step whose commit failed leaves the attempt
   * unrecorded, so a retry that commits would post (`FailedCommitRetriedAtOnce`).
   */
  predicate Settled(s: State, u: UserId, now: Millis, failing: set<UserId>)
    requires u in s.users
  {
    !WillPost(PlanFor(s, u, now), u in failing)
  }

  /** A user's own step leaves it settled under the same storage failures, whatever the outcome. */
  lemma SettledAfterOwnStep(s: State, u: UserId, now: Millis, failing: set<UserId>)
    requires u in s.users
    ensures Settled(RunUser(s, u, now, u in failing).state, u, now, failing)
  {
    var r := RunUser(s, u, now, u in failing);
    if r.outcome.Posted? {
      NoSecondPaymentWithinAWeek(s, u, now, now, u in failing, u in failing);
    }
  }

  /**
   * A failed commit records no attempt: the user is not rate-limited
   * afterwards, and a retry at the same instant whose commit succeeds posts.
   */
  lemma FailedCommitRetriedAtOnce(s: State, u: UserId, now: Millis)
    requires u in s.users
    requires WillPost(PlanFor(s, u, now), false)
    ensures var failed := RunUser(s, u, now, true);
            && failed.outcome == Failed(CommitFailed)
            && failed.state.users[u].lastAllowanceAttempt == s.users[u].lastAllowanceAttempt
            && RunUser(failed.state, u, now, false).outcome.Posted?
  {
  }

  /** The plan of a user depends only on its record, the memberships and the settings. */
  lemma PlanFrame(s: State, s': State, u: UserId, now: Millis)
    requires u in s.users && u in s'.users
    requires s'.users[u] == s.users[u] && s'.members == s.members && s'.settings == s.settings
    ensures PlanFor(s', u, now) == PlanFor(s, u, now)
  {
  }

  /** The batch reports `u` as paid. */
  predicate ReportsPaid(r: BatchRun, u: UserId) {
    exists j :: 0 <= j < |r.results| && r.results[j].userId == u
  }

  /** The batch logs a failure for `u`. */
  predicate ReportsFailed(r: BatchRun, u: UserId) {
    exists j :: 0 <= j < |r.logs| && r.logs[j].userId == u
  }

  /** No user appears twice among the results, nor twice among the logs. */
  predicate OnceEach(r: BatchRun) {
    && (forall j, k :: 0 <= j < k < |r.results| ==> r.results[j].userId != r.results[k].userId)
    && (forall j, k :: 0 <= j < k < |r.logs| ==> r.logs[j].userId != r.logs[k].userId)
  }

  /** A step for one user leaves every other user's plan as it was. */
  lemma StepKeepsOtherPlans(s: State, uid: UserId, now: Millis, commitFails: bool, u: UserId)
    requires uid in s.users && u in s.users && u != uid
    ensures var s' := RunUser(s, uid, now, commitFails).state;
            u in s'.users && PlanFor(s', u, now) == PlanFor(s, u, now)
  {
    var s' := RunUser(s, uid, now, commitFails).state;
    assert s'.users[u] == s.users[u];
    PlanFrame(s, s', u, now);
  }

  /** Recording the head user's outcome leaves what is reported about every other user as it was. */
  lemma RecordKeepsOthers(uid: UserId, outcome: Outcome, rest: BatchRun, u: UserId)
    requires u != uid
    ensures ReportsPaid(Record(uid, outcome, rest), u) <==> ReportsPaid(rest, u)
    ensures ReportsFailed(Record(uid, outcome, rest), u) <==> ReportsFailed(rest, u)
  {
    var r := Record(uid, outcome, rest);
    if ReportsPaid(r, u) {
      var j :| 0 <= j < |r.results| && r.results[j].userId == u;
      if outcome.Posted? { assert r.results[j] == rest.results[j - 1]; }
    }
    if ReportsPaid(rest, u) {
      var j :| 0 <= j < |rest.results| && rest.results[j].userId == u;
      if outcome.Posted? { assert r.results[j + 1] == rest.results[j]; }
    }
    if ReportsFailed(r, u) {
      var j :| 0 <= j < |r.logs| && r.logs[j].userId == u;
      if outcome.Failed? { assert r.logs[j] == rest.logs[j - 1]; }
    }
    if ReportsFailed(rest, u) {
      var j :| 0 <= j < |rest.logs| && rest.logs[j].userId == u;
      if outcome.Failed? { assert r.logs[j + 1] == rest.logs[j]; }
    }
  }

  /** Past the new head entry, the results and logs are those of the rest. */
  lemma RecordKeepsTail(uid: UserId, outcome: Outcome, rest: BatchRun)
    ensures var r := Record(uid, outcome, rest);
            var p := if outcome.Posted? then 1 else 0;
            var f := if outcome.Failed? then 1 else 0;
            && (forall j :: p <= j < |r.results| ==> r.results[j] == rest.results[j - p] && r.results[j] in rest.results)
            && (forall j :: f <= j < |r.logs| ==> r.logs[j] == rest.logs[j - f] && r.logs[j] in rest.logs)
  {
  }

  /**
   * Recording the outcome of a user the rest does not mention reports it as
   * paid exactly on a post, as logged exactly on a failure, and once at most.
   */
  lemma RecordHead(uid: UserId, outcome: Outcome, rest: BatchRun)
    requires !ReportsPaid(rest, uid) && !ReportsFailed(rest, uid) && OnceEach(rest)
    ensures ReportsPaid(Record(uid, outcome, rest), uid) <==> outcome.Posted?
    ensures ReportsFailed(Record(uid, outcome, rest), uid) <==> outcome.Failed?
    ensures OnceEach(Record(uid, outcome, rest))
  {
    var r := Record(uid, outcome, rest);
    RecordKeepsTail(uid, outcome, rest);
    if outcome.Posted? {
      assert r.results[0].userId == uid;
      forall j, k | 0 <= j < k < |r.results| ensures r.results[j].userId != r.results[k].userId {
        assert r.results[k] == rest.results[k - 1];
        if j > 0 { assert r.results[j] == rest.results[j - 1]; }
      }
    }
    if outcome.Failed? {
      assert r.logs[0].userId == uid;
      forall j, k | 0 <= j < k < |r.logs| ensures r.logs[j].userId != r.logs[k].userId {
        assert r.logs[k] == rest.logs[k - 1];
        if j > 0 { assert r.logs[j] == rest.logs[j - 1]; }
      }
    }
  }

  /** The first user of a distinct list does not occur in its tail, which is distinct and known too. */
  lemma TailOfDistinct(s: State, s': State, order: seq<UserId>)
    requires |order| > 0 && AllKnown(s, order) && Distinct(order) && s'.users.Keys == s.users.Keys
    ensures AllKnown(s', order[1..]) && Distinct(order[1..]) && order[0] !in order[1..]
  {
    var tail := order[1..];
    forall i | 0 <= i < |tail| ensures tail[i] in s'.users && tail[i] != order[0] {
      assert tail[i] == order[i + 1];
    }
    forall i, j | 0 <= i < j < |tail| ensures tail[i] != tail[j] {
      assert tail[i] == order[i + 1] && tail[j] == order[j + 1];
    }
  }

  /** The rest of the batch reports nothing about a user outside its list. */
  lemma RestSilentOn(s: State, order: seq<UserId>, now: Millis, failing: set<UserId>, u: UserId)
    requires AllKnown(s, order) && u !in order
    ensures !ReportsPaid(RunAll(s, order, now, failing), u)
    ensures !ReportsFailed(RunAll(s, order, now, failing), u)
  {
    RunAllAppendsOnlyPaidRows(s, order, now, failing);
  }

  /**
   * Over a query of distinct users, the batch reports each listed user once
   * at most: as paid exactly when its own step would post in the starting
   * store, and as logged exactly when it was due but its step failed. A
   * skipped user appears in neither list.
   */
  lemma {:induction false} RunAllReportsEachUser(s: State, order: seq<UserId>, now: Millis, failing: set<UserId>)
    requires AllKnown(s, order) && Distinct(order)
    ensures var r := RunAll(s, order, now, failing);
            && OnceEach(r)
            && (forall i :: 0 <= i < |order| ==>
                  (ReportsPaid(r, order[i]) <==> WillPost(PlanFor(s, order[i], now), order[i] in failing)))
            && (forall i :: 0 <= i < |order| ==>
                  (ReportsFailed(r, order[i]) <==>
                     PlanFor(s, order[i], now).Due? && !WillPost(PlanFor(s, order[i], now), order[i] in failing)))
    decreases |order|
  {
    if |order| > 0 {
      var r := RunAll(s, order, now, failing);
      var uid := order[0];
      var tail := order[1..];
      var step := RunUser(s, uid, now, uid in failing);
      TailOfDistinct(s, step.state, order);
      var rest := RunAll(step.state, tail, now, failing);
      assert r == Record(uid, step.outcome, rest);
      RunAllReportsEachUser(step.state, tail, now, failing);
      RestSilentOn(step.state, tail, now, failing, uid);
      RecordHead(uid, step.outcome, rest);
      forall i | 1 <= i < |order|
        ensures && (ReportsPaid(r, order[i]) <==> WillPost(PlanFor(s, order[i], now), order[i] in failing))
                && (ReportsFailed(r, order[i]) <==>
                      PlanFor(s, order[i], now).Due? && !WillPost(PlanFor(s, order[i], now), order[i] in failing))
      {
        assert order[i] == tail[i - 1];
        StepKeepsOtherPlans(s, uid, now, uid in failing, order[i]);
        RecordKeepsOthers(uid, step.outcome, rest, order[i]);
      }
    }
  }

  /** A result names a due user of `s` and carries its plan's week count. */
  predicate Planned(s: State, x: RunResult, now: Millis) {
    x.userId in s.users && PlanFor(s, x.userId, now).Due? && x.weeksProcessed == PlanFor(s, x.userId, now).weeks
  }

  /** A result keeps its meaning between two stores that plan its user alike. */
  lemma PlannedFrame(s: State, s': State, x: RunResult, now: Millis)
    requires x.userId in s.users && x.userId in s'.users
    requires PlanFor(s', x.userId, now) == PlanFor(s, x.userId, now)
    requires Planned(s', x, now)
    ensures Planned(s, x, now)
  {
  }

  /** Every paid user is reported with the week count of its plan in the starting store. */
  lemma {:induction false} RunAllReportsPlannedWeeks(s: State, order: seq<UserId>, now: Millis, failing: set<UserId>)
    requires AllKnown(s, order) && Distinct(order)
    ensures var r := RunAll(s, order, now, failing);
            forall j :: 0 <= j < |r.results| ==> Planned(s, r.results[j], now)
    decreases |order|
  {
    if |order| > 0 {
      var r := RunAll(s, order, now, failing);
      var uid := order[0];
      var tail := order[1..];
      var step := RunUser(s, uid, now, uid in failing);
      TailOfDistinct(s, step.state, order);
      var rest := RunAll(step.state, tail, now, failing);
      assert r == Record(uid, step.outcome, rest);
      RunAllReportsPlannedWeeks(step.state, tail, now, failing);
      RestSilentOn(step.state, tail, now, failing, uid);
      RecordKeepsTail(uid, step.outcome, rest);
      forall j | 0 <= j < |r.results| ensures Planned(s, r.results[j], now) {
        if !(step.outcome.Posted? && j == 0) {
          var x := r.results[j];
          assert x in rest.results;
          assert x.userId != uid;
          StepKeepsOtherPlans(s, uid, now, uid in failing, x.userId);
          PlannedFrame(s, step.state, x, now);
        }
      }
    }
  }

  /** The batch never changes the record of a user it does not process. */
  lemma {:induction false} RunAllKeepsOthers(s: State, order: seq<UserId>, now: Millis, failing: set<UserId>, u: UserId)
    requires AllKnown(s, order)
    requires u in s.users && u !in order
    ensures u in RunAll(s, order, now, failing).state.users
    ensures RunAll(s, order, now, failing).state.users[u] == s.users[u]
    decreases |order|
  {
    if |order| > 0 {
      var step := RunUser(s, order[0], now, order[0] in failing);
      assert u != order[0];
      assert step.state.users[u] == s.users[u];
      assert AllKnown(step.state, order[1..]) by {
        forall i | 0 <= i < |order[1..]| ensures order[1..][i] in step.state.users {
          assert order[1..][i] == order[i + 1];
        }
      }
      assert u !in order[1..];
      RunAllKeepsOthers(step.state, order[1..], now, failing, u);
    }
  }

  /** After the batch, every user it processed is settled. */
  lemma {:induction false} RunAllSettles(s: State, order: seq<UserId>, now: Millis, failing: set<UserId>)
    requires AllKnown(s, order) && Distinct(order)
    ensures forall i :: 0 <= i < |order| ==> order[i] in RunAll(s, order, now, failing).state.users
    ensures forall i :: 0 <= i < |order| ==> Settled(RunAll(s, order, now, failing).state, order[i], now, failing)
    decreases |order|
  {
    if |order| > 0 {
      var u := order[0];
      var step := RunUser(s, u, now, u in failing);
      var tail := order[1..];
      assert AllKnown(step.state, tail) by {
        forall i | 0 <= i < |tail| ensures tail[i] in step.state.users {
          assert tail[i] == order[i + 1];
        }
      }
      assert Distinct(tail) by {
        forall i, j | 0 <= i < j < |tail| ensures tail[i] != tail[j] {
          assert tail[i] == order[i + 1] && tail[j] == order[j + 1];
        }
      }
      assert u !in tail by {
        forall i | 0 <= i < |tail| ensures tail[i] != u {
          assert tail[i] == order[i + 1];
        }
      }
      var final := RunAll(step.state, tail, now, failing);
      assert final == RunAll(s, order, now, failing).(results := final.results, logs := final.logs);
      SettledAfterOwnStep(s, u, now, failing);
      RunAllKeepsOthers(step.state, tail, now, failing, u);
      PlanFrame(step.state, final.state, u, now);
      RunAllSettles(step.state, tail, now, failing);
      forall i | 0 <= i < |order|
        ensures order[i] in final.state.users && Settled(final.state, order[i], now, failing)
      {
        if i > 0 {
          assert order[i] == tail[i - 1];
        }
      }
    }
  }

  /** A batch over users who are all settled changes nothing and pays nobody. */
  lemma {:induction false} RunAllOnSettled(s: State, order: seq<UserId>, now: Millis, failing: set<UserId>)
    requires AllKnown(s, order)
    requires forall i :: 0 <= i < |order| ==> Settled(s, order[i], now, failing)
    ensures RunAll(s, order, now, failing).state == s
    ensures RunAll(s, order, now, failing).results == []
    decreases |order|
  {
    if |order| > 0 {
      var step := RunUser(s, order[0], now, order[0] in failing);
      assert step.state == s;
      var tail := order[1..];
      forall i | 0 <= i < |tail| ensures tail[i] in s.users && Settled(s, tail[i], now, failing) {
        assert tail[i] == order[i + 1];
      }
      RunAllOnSettled(s, tail, now, failing);
    }
  }

  /**
   * No double pay across batches: running the whole batch a second time at
   * the same instant, with the same storage failures, changes nothing and
   * reports no processed user.
   */
  lemma BatchRerunPostsNothing(s: State, order: seq<UserId>, now: Millis, failing: set<UserId>)
    requires AllKnown(s, order) && Distinct(order)
    ensures var first := RunAll(s, order, now, failing);
            AllKnown(first.state, order)
            && RunAll(first.state, order, now, failing).state == first.state
            && RunAll(first.state, order, now, failing).results == []
  {
    var first := RunAll(s, order, now, failing);
    RunAllSettles(s, order, now, failing);
    RunAllOnSettled(first.state, order, now, failing);
  }

  /**
   * Failure isolation: a user whose step does not post, because it fails on
   * a storage error or a non-finite saving amount or because it is skipped,
   * keeps its run-state (so the next run retries from the same start date)
   * and gains no ledger rows; the batch carries on with the other users.
   */
  lemma {:induction false} FailingUserUntouched(s: State, order: seq<UserId>, now: Millis, failing: set<UserId>, u: UserId)
    requires AllKnown(s, order)
    requires u in s.users && !WillPost(PlanFor(s, u, now), u in failing)
    ensures var r := RunAll(s, order, now, failing);
            && u in r.state.users
            && r.state.users[u] == s.users[u]
            && forall i :: |s.ledger| <= i < |r.state.ledger| ==> r.state.ledger[i].ownerId != u
    decreases |order|
  {
    if |order| > 0 {
      var uid := order[0];
      var tail := order[1..];
      var step := RunUser(s, uid, now, uid in failing);
      StepGrows(s, uid, now, failing);
      if uid != u {
        StepKeepsOtherPlans(s, uid, now, uid in failing, u);
      }
      assert step.state.users[u] == s.users[u];
      assert AllKnown(step.state, tail) by {
        forall i | 0 <= i < |tail| ensures tail[i] in step.state.users {
          assert tail[i] == order[i + 1];
        }
      }
      FailingUserUntouched(step.state, tail, now, failing, u);
      RunAllAppendsOnlyPaidRows(step.state, tail, now, failing);
      var rest := RunAll(step.state, tail, now, failing);
      var r := RunAll(s, order, now, failing);
      assert r.state == rest.state;
      forall i | |s.ledger| <= i < |r.state.ledger| ensures r.state.ledger[i].ownerId != u {
        if i < |step.state.ledger| {
          assert r.state.ledger[i] == step.state.ledger[i];
          assert step.state.ledger[i].ownerId in [uid];
        }
      }
    }
  }
}

=== FILE: deletion.dfy ===
/**
 * Deleting a ledger row (`deleteTransaction` in `app/actions.ts`): allowed
 * to a PARENT of the row's family or to the row's creator, and to nobody
 * else. There is no guard on system-created rows.
 */
module Deletion {
  import opened Domain
  import opened Ledger

  datatype DeleteError =
    | NotSignedIn       // redirected to the sign-in page
    | NotFound          // "Transaction not found"
    | NotAuthorized     // "Not authorized to delete this transaction"

  /** The role of `uid` in `family`, from its first membership row there. */
  function RoleIn(members: seq<FamilyMember>, uid: UserId, family: FamilyId): (r: Option<Role>)
    ensures r.None? <==> forall i :: 0 <= i < |members| ==> members[i].userId != uid || members[i].familyId != family
    ensures r.Some? ==> exists i :: && 0 <= i < |members| && members[i] == FamilyMember(uid, family, r.value)
                                    && forall k :: 0 <= k < i ==> members[k].userId != uid || members[k].familyId != family
  {
    if |members| == 0 then None
    else if members[0].userId == uid && members[0].familyId == family then Some(members[0].role)
    else
      var rest := RoleIn(members[1..], uid, family);
      assert forall i :: 1 <= i < |members| ==> members[i] == members[1..][i - 1];
      assert rest.Some? ==> exists i :: && 0 <= i < |members| && members[i] == FamilyMember(uid, family, rest.value)
                                        && forall k :: 0 <= k < i ==> members[k].userId != uid || members[k].familyId != family
      by {
        if rest.Some? {
          var j :| && 0 <= j < |members[1..]| && members[1..][j] == FamilyMember(uid, family, rest.value)
                   && forall k :: 0 <= k < j ==> members[1..][k].userId != uid || members[1..][k].familyId != family;
          assert members[j + 1] == members[1..][j];
          forall k | 0 <= k < j + 1 ensures members[k].userId != uid || members[k].familyId != family {
            if k > 0 { assert members[k] == members[1..][k - 1]; }
          }
        }
      }
      rest
  }

  /** The shared rule, also used by the transaction table to show the delete button. */
  predicate CanDelete(isParent: bool, isCreator: bool) {
    isParent || isCreator
  }

  predicate IsParentOf(members: seq<FamilyMember>, caller: UserId, t: Transaction) {
    RoleIn(members, caller, t.familyId) == Some(PARENT)
  }

  /** The delete action. On success the store is the old one without row `id`. */
  function DeleteTransaction(s: State, caller: Option<UserId>, id: TxId): (r: Result<State, DeleteError>)
    ensures r == Failure(NotSignedIn) <==> !Truthy(caller)
    ensures r == Failure(NotFound) <==> Truthy(caller) && FindById(s.ledger, id).None?
    ensures r == Failure(NotAuthorized) <==>
              && Truthy(caller)
              && FindById(s.ledger, id).Some?
              && var t := s.ledger[FindById(s.ledger, id).value];
                 !CanDelete(IsParentOf(s.members, caller.value, t), t.createdById == caller.value)
    ensures r.Success? <==>
              && Truthy(caller)
              && FindById(s.ledger, id).Some?
              && var t := s.ledger[FindById(s.ledger, id).value];
                 CanDelete(IsParentOf(s.members, caller.value, t), t.createdById == caller.value)
    ensures r.Success? ==>
              var i := FindById(s.ledger, id).value;
              && r.value == s.(ledger := s.ledger[..i] + s.ledger[i + 1..])
    ensures r.Success? && Wf(s) ==>
              && Wf(r.value)
              && |r.value.ledger| == |s.ledger| - 1
              && (forall t :: t in r.value.ledger <==> t in s.ledger && t.id != id)
  {
    if !Truthy(caller) then Failure(NotSignedIn)
    else
      var found := FindById(s.ledger, id);
      if found.None? then Failure(NotFound)
      else
        var i := found.value;
        var t := s.ledger[i];
        var isParent := IsParentOf(s.members, caller.value, t);
        var isCreator := t.createdById == caller.value;
        if !isParent && !isCreator then Failure(NotAuthorized)
        else
          var s' := s.(ledger := s.ledger[..i] + s.ledger[i + 1..]);
          assert Wf(s) ==> Wf(s') && forall t :: t in s'.ledger <==> t in s.ledger && t.id != id by {
            if Wf(s) {
              RemoveAtKeepsWf(s, i);
            }
          }
          Success(s')
  }

  lemma RemoveAtKeepsWf(s: State, i: nat)
    requires Wf(s) && i < |s.ledger|
    ensures var l := s.ledger[..i] + s.ledger[i + 1..];
            && Wf(s.(ledger := l))
            && forall t :: t in l <==> t in s.ledger && t.id != s.ledger[i].id
  {
    var l := s.ledger[..i] + s.ledger[i + 1..];
    assert forall k :: 0 <= k < |l| ==> l[k] == s.ledger[if k < i then k else k + 1];
    forall t | t in s.ledger && t.id != s.ledger[i].id ensures t in l {
      var k :| 0 <= k < |s.ledger| && s.ledger[k] == t;
      assert k != i;
      if k < i { assert l[k] == t; } else { assert l[k - 1] == t; }
    }
  }

  /**
   * Allowance rows are deletable like any other; deleting a SAVING row lowers
   * the principal the next accrual compounds on by that row's amount.
   */
  lemma DeletingSavingRowLowersPrincipal(s: State, caller: Option<UserId>, id: TxId)
    requires DeleteTransaction(s, caller, id).Success?
    ensures var t := s.ledger[FindById(s.ledger, id).value];
            t.category == SAVING ==>
              Principal(DeleteTransaction(s, caller, id).value.ledger, t.ownerId, t.familyId)
                == Principal(s.ledger, t.ownerId, t.familyId) - t.amount
  {
    var i := FindById(s.ledger, id).value;
    var t := s.ledger[i];
    PrincipalRemoveAt(s.ledger, i, t.ownerId, t.familyId);
  }

  /**
   * The engine records the paid user as the creator of its allowance rows, so
   * a child may delete its own allowance postings without being a parent.
   */
  lemma OwnAllowanceRowsDeletable(s: State, uid: UserId, i: nat)
    requires uid != ""
    requires i < |s.ledger| && Wf(s)
    requires s.ledger[i].isSystemCreated && s.ledger[i].createdById == uid
    ensures DeleteTransaction(s, Some(uid), s.ledger[i].id).Success?
  {
    var id := s.ledger[i].id;
    var found := FindById(s.ledger, id);
    assert found.Some?;
    assert found.value == i;
  }
}

=== FILE: domain.dfy ===
/**
 * The relational store the allowance tracker works on: users with their
 * allowance run-state, family memberships, versioned allowance settings and
 * the append-only transaction ledger. Timestamps are integer milliseconds
 * since the epoch and money is integer cents.
 */
module Domain {

  /** An optional value; `None` stands for SQL `NULL` / JavaScript `null`. */
  datatype Option<T> = None | Some(value: T) {
    function GetOr(default: T): T {
      match this
      case Some(v) => v
      case None => default
    }
  }

  /** Either a value or an error, for operations that throw in the source. */
  datatype Result<T, E> = Success(value: T) | Failure(error: E)

  type UserId = string
  type FamilyId = string
  type TxId = nat
  type Millis = int

  const MsPerHour: int := 60 * 60 * 1000
  const MsPerDay: int := 24 * MsPerHour
  const MsPerWeek: int := 7 * MsPerDay

  datatype Category = SPENDING | SAVING | GIVING
  datatype Role = PARENT | CHILD
  datatype Period = WEEK | YEAR

  /** The deployment environment (`NODE_ENV`). */
  datatype Env = Production | Development | TestEnv

  /** A user's allowance run-state; the user id is the key of `State.users`. */
  datatype User = User(
    username: Option<string>,
    createdAt: Millis,
    lastAllowanceRun: Option<Millis>,
    lastAllowanceAttempt: Option<Millis>,
    allowanceRunCount: nat)

  datatype FamilyMember = FamilyMember(userId: UserId, familyId: FamilyId, role: Role)

  /**
   * One version of a per-category allowance setting. `amount` is cents per
   * week for SPENDING and GIVING and basis points per year for SAVING.
   */
  datatype Setting = Setting(
    userId: UserId,
    familyId: FamilyId,
    createdById: UserId,
    category: Category,
    amount: int,
    isPercentage: bool,
    period: Period,
    createdAt: Millis)

  /** The description text of a ledger row, kept structured. */
  datatype Description =
    | AllowanceNote(noteCategory: Category, weeks: int)
    | WeeklyTestNote(testCategory: Category)
    | Manual(text: string)

  datatype Transaction = Transaction(
    id: TxId,
    ownerId: UserId,
    createdById: UserId,
    familyId: FamilyId,
    category: Category,
    amount: int,
    description: Description,
    date: Millis,
    isSystemCreated: bool)

  /** The whole store; `nextId` is the next fresh transaction id. */
  datatype State = State(
    users: map<UserId, User>,
    members: seq<FamilyMember>,
    settings: seq<Setting>,
    ledger: seq<Transaction>,
    nextId: TxId)

  /** No two rows of the ledger share an id. */
  ghost predicate UniqueIds(ledger: seq<Transaction>) {
    forall i, j :: 0 <= i < j < |ledger| ==> ledger[i].id != ledger[j].id
  }

  /** Transaction ids are unique and all below `nextId`. */
  ghost predicate Wf(s: State) {
    && (forall i :: 0 <= i < |s.ledger| ==> s.ledger[i].id < s.nextId)
    && UniqueIds(s.ledger)
  }

  /** JavaScript truthiness of an optional string: present and non-empty. */
  predicate Truthy(s: Option<string>) {
    s.Some? && s.value != ""
  }

  /** The first membership row of `uid` in store order (`user.familyMembers[0]`). */
  function FirstMembership(members: seq<FamilyMember>, uid: UserId): (r: Option<FamilyMember>)
    ensures r.None? <==> forall i :: 0 <= i < |members| ==> members[i].userId != uid
    ensures r.Some? ==> exists i :: (0 <= i < |members| && members[i] == r.value && members[i].userId == uid
                                     && forall k :: 0 <= k < i ==> members[k].userId != uid)
  {
    if |members| == 0 then None
    else if members[0].userId == uid then Some(members[0])
    else
      var rest := FirstMembership(members[1..], uid);
      if rest.Some? then
        ghost var j :| (0 <= j < |members[1..]| && members[1..][j] == rest.value && members[1..][j].userId == uid
                        && forall k :: 0 <= k < j ==> members[1..][k].userId != uid);
        assert members[j + 1] == rest.value;
        rest
      else rest
  }
}

=== FILE: format.dfy ===
/**
 * `formatAmount` (`lib/utils.ts`): integer cents to a currency string, the
 * symbol followed by the dollar part, a '.', and exactly two cent digits.
 * The sign is dropped. Amounts are read as exact integers (the source divides
 * by 100 in floating point and prints with `toFixed(2)`, which agrees for
 * cent values far below 2^53).
 */
module Format {
  import opened Domain

  function Abs(a: int): nat {
    if a < 0 then -a else a
  }

  predicate IsDigit(c: char) {
    '0' <= c <= '9'
  }

  predicate AllDigits(s: string) {
    forall i :: 0 <= i < |s| ==> IsDigit(s[i])
  }

  function DigitValue(c: char): nat
    requires IsDigit(c)
  {
    c as int - '0' as int
  }

  function DigitChar(d: nat): (c: char)
    requires d < 10
    ensures IsDigit(c) && DigitValue(c) == d
  {
    ('0' as int + d) as char
  }

  /** The shortest decimal numeral of `n`. */
  function NatToDecimal(n: nat): (r: string)
    ensures |r| >= 1 && AllDigits(r)
    ensures |r| > 1 ==> r[0] != '0'
  {
    if n < 10 then [DigitChar(n)]
    else NatToDecimal(n / 10) + [DigitChar(n % 10)]
  }

  /** The value of a decimal numeral, most significant digit first. */
  function DecimalValue(s: string): nat
    requires AllDigits(s)
  {
    if |s| == 0 then 0
    else DecimalValue(s[..|s| - 1]) * 10 + DigitValue(s[|s| - 1])
  }

  lemma {:induction false} DecimalRoundTrip(n: nat)
    ensures DecimalValue(NatToDecimal(n)) == n
  {
    if n >= 10 {
      var s := NatToDecimal(n);
      assert s[..|s| - 1] == NatToDecimal(n / 10);
      DecimalRoundTrip(n / 10);
    }
  }

  /**
   * Reads back a string of the form `<digits>.<digit><digit>` as a number of
   * cents; anything else is `None`.
   */
  function ParseCents(s: string): Option<nat> {
    if |s| < 4 || s[|s| - 3] != '.' || !AllDigits(s[..|s| - 3]) || !IsDigit(s[|s| - 2]) || !IsDigit(s[|s| - 1]) then None
    else Some(DecimalValue(s[..|s| - 3]) * 100 + DigitValue(s[|s| - 2]) * 10 + DigitValue(s[|s| - 1]))
  }

  /** The text after the symbol: dollars, a '.', and two cent digits. */
  function CentsText(cents: nat): (t: string)
    ensures |t| >= 4 && t[|t| - 3] == '.' && IsDigit(t[|t| - 2]) && IsDigit(t[|t| - 1])
    ensures |t| > 4 ==> t[0] != '0'
  {
    NatToDecimal(cents / 100) + "." + [DigitChar(cents % 100 / 10), DigitChar(cents % 10)]
  }

  /** The cents text reads back as the number of cents it was built from. */
  lemma CentsTextParses(cents: nat)
    ensures ParseCents(CentsText(cents)) == Some(cents)
  {
    var t := CentsText(cents);
    var dollars := NatToDecimal(cents / 100);
    assert t[..|t| - 3] == dollars;
    DecimalRoundTrip(cents / 100);
  }

  /** `formatAmount(amount, currencySymbol)`. */
  function FormatAmount(amount: int, symbol: string): (r: string)
    ensures |r| >= |symbol| + 4
    ensures r[..|symbol|] == symbol
    ensures r[|r| - 3] == '.' && IsDigit(r[|r| - 2]) && IsDigit(r[|r| - 1])
    ensures |r| > |symbol| + 4 ==> r[|symbol|] != '0'
    ensures ParseCents(r[|symbol|..]) == Some(Abs(amount))
  {
    var t := CentsText(Abs(amount));
    CentsTextParses(Abs(amount));
    assert (symbol + t)[|symbol|..] == t;
    symbol + t
  }

  /** The sign is discarded: an amount and its negation print identically. */
  lemma FormatAmountIgnoresSign(amount: int, symbol: string)
    ensures FormatAmount(amount, symbol) == FormatAmount(-amount, symbol)
  {
  }

  /** Two amounts print identically exactly when their magnitudes are equal. */
  lemma FormatAmountDeterminesMagnitude(a: int, b: int, symbol: string)
    ensures FormatAmount(a, symbol) == FormatAmount(b, symbol) <==> Abs(a) == Abs(b)
  {
    if FormatAmount(a, symbol) == FormatAmount(b, symbol) {
      assert ParseCents(FormatAmount(a, symbol)[|symbol|..]) == ParseCents(FormatAmount(b, symbol)[|symbol|..]);
    }
  }

  /** 1234 cents print as "$12.34" and 5 cents as "$0.05". */
  lemma FormatAmountExamples()
    ensures FormatAmount(1234, "$") == "$12.34"
    ensures FormatAmount(-5, "$") == "$0.05"
  {
    assert NatToDecimal(12) == NatToDecimal(1) + [DigitChar(2)];
  }
}

=== FILE: harness.dfy ===
/**
 * The development-only reset harness (`app/api/allowance/test/route.ts`):
 * it deletes a user's system-created rows, rewinds the user's run-state by a
 * number of weeks and then calls the run endpoint.
 */
module Harness {
  import opened Domain
  import opened Ledger
  import opened Batch

  /** The store after deleting `uid`'s system rows and rewinding its run-state by `weeks`. */
  function ResetUser(s: State, uid: UserId, weeks: int, now: Millis): (r: State)
    requires uid in s.users
    ensures r.users.Keys == s.users.Keys
    ensures forall v :: v in s.users && v != uid ==> r.users[v] == s.users[v]
    ensures r.users[uid].lastAllowanceRun == Some(now - weeks * MsPerWeek)
    ensures r.users[uid].lastAllowanceAttempt.None?
    ensures r.users[uid].allowanceRunCount == 0
    ensures r.users[uid].createdAt == s.users[uid].createdAt && r.users[uid].username == s.users[uid].username
    ensures forall t :: t in r.ledger <==> t in s.ledger && !(t.ownerId == uid && t.isSystemCreated)
    ensures r.members == s.members && r.settings == s.settings && r.nextId == s.nextId
    ensures Wf(s) ==> Wf(r)
  {
    var u := s.users[uid];
    s.(users := s.users[uid := u.(lastAllowanceRun := Some(now - weeks * MsPerWeek),
                                  lastAllowanceAttempt := None,
                                  allowanceRunCount := 0)],
       ledger := WithoutSystemRowsOf(s.ledger, uid))
  }

  datatype HarnessResponse =
    | NotInDevelopment                              // 403
    | MissingUserId                                 // 400
    | ResetFailed                                   // 500: the user update threw
    | Simulated(weeksSimulated: int, run: RunResponse)

  /**
   * The harness endpoint. `weeksToSimulate` defaults to 1 when absent and is
   * not range-checked. The row deletion happens before the user update, so an
   * unknown user id still loses its system rows before the 500. The run
   * endpoint is then called at the later clock reading `runNow`.
   */
  function Simulate(env: Env, userId: Option<UserId>, weeksToSimulate: Option<int>, s: State,
                    resetNow: Millis, runNow: Millis, order: seq<UserId>, failing: set<UserId>): (r: (State, HarnessResponse))
    requires IsUserQuery(s, order)
    ensures env != Development ==> r == (s, NotInDevelopment)
    ensures env == Development && !Truthy(userId) ==> r == (s, MissingUserId)
    ensures r.1.ResetFailed? ==> r.0 == s.(ledger := WithoutSystemRowsOf(s.ledger, userId.value))
    ensures r.1.Simulated? ==> env == Development && Truthy(userId) && userId.value in s.users
    ensures r.1.Simulated? ==> r.1.weeksSimulated == weeksToSimulate.GetOr(1)
    ensures env == Development && Truthy(userId) && userId.value !in s.users ==> r.1 == ResetFailed
    ensures env == Development && Truthy(userId) && userId.value in s.users ==> r.1.Simulated?
    ensures r.1.Simulated? ==>
              && r.1.run.Completed?
              && AllKnown(ResetUser(s, userId.value, r.1.weeksSimulated, resetNow), order)
              && r.0 == RunAll(ResetUser(s, userId.value, r.1.weeksSimulated, resetNow), order, runNow, failing).state
              && r.1.run.report.results == RunAll(ResetUser(s, userId.value, r.1.weeksSimulated, resetNow), order, runNow, failing).results
    ensures Wf(s) ==> Wf(r.0)
  {
    if env != Development then (s, NotInDevelopment)
    else if !Truthy(userId) then (s, MissingUserId)
    else
      var uid := userId.value;
      var weeks := weeksToSimulate.GetOr(1);
      if uid !in s.users then
        var s' := s.(ledger := WithoutSystemRowsOf(s.ledger, uid));
        assert Wf(s) ==> Wf(s') by {
          if Wf(s) {
            forall i | 0 <= i < |s'.ledger| ensures s'.ledger[i].id < s'.nextId {
              assert s'.ledger[i] in s.ledger;
            }
          }
        }
        (s', ResetFailed)
      else
        var s1 := ResetUser(s, uid, weeks, resetNow);
        assert IsUserQuery(s1, order) by {
          assert forall v :: HasSetting(s1, v) == HasSetting(s, v);
        }
        var run := RunEndpoint(Development, None, None, s1, order, runNow, failing);
        (run.0, Simulated(weeks, run.1))
  }
}

=== FILE: harness_facts.dfy ===
/**
 * The reset harness composed with the engine: rewinding a user by `w` weeks
 * and running the engine less than a week later pays exactly `w` weeks.
 */
module HarnessFacts {
  import opened Domain
  import opened Settings
  import opened Accrual
  import opened Harness

  /**
   * After a reset by any `w` (the harness accepts zero and negative values
   * too), an engine run in the following week is not rate-limited and counts
   * exactly `w` whole weeks.
   */
  lemma ResetThenRunCountsWeeks(s: State, uid: UserId, w: int, resetNow: Millis, runNow: Millis)
    requires uid in s.users
    requires resetNow <= runNow < resetNow + MsPerWeek
    ensures var u := ResetUser(s, uid, w, resetNow).users[uid];
            !RateLimited(u, runNow) && WeeksToRun(runNow, StartDate(u)) == w
  {
    var u := ResetUser(s, uid, w, resetNow).users[uid];
    assert StartDate(u) == resetNow - w * MsPerWeek;
    var q := WeeksToRun(runNow, StartDate(u));
    assert q * MsPerWeek <= runNow - resetNow + w * MsPerWeek < (q + 1) * MsPerWeek;
    assert (q - w) * MsPerWeek <= runNow - resetNow < (q - w + 1) * MsPerWeek;
  }

  /**
   * Reset by `w >= 1`, then run: a user with a family and all three settings
   * is paid exactly `w` weeks of SPENDING and GIVING in one step.
   */
  lemma ResetThenRunPaysWeeks(s: State, uid: UserId, w: int, resetNow: Millis, runNow: Millis)
    requires uid in s.users
    requires w >= 1
    requires resetNow <= runNow < resetNow + MsPerWeek
    requires FirstMembership(s.members, uid).Some?
    requires forall c: Category :: Latest(s.settings, uid, AllFamilies, c).Some?
    ensures var r := RunUser(ResetUser(s, uid, w, resetNow), uid, runNow, false);
            && r.outcome.Posted?
            && r.outcome.weeks == w
            && r.outcome.rows[0].amount == Latest(s.settings, uid, AllFamilies, SPENDING).value.amount * w
            && r.outcome.rows[2].amount == Latest(s.settings, uid, AllFamilies, GIVING).value.amount * w
  {
    ResetThenRunCountsWeeks(s, uid, w, resetNow, runNow);
    var s1 := ResetUser(s, uid, w, resetNow);
    assert Latest(s1.settings, uid, AllFamilies, SPENDING).Some?;
    assert Latest(s1.settings, uid, AllFamilies, SAVING).Some?;
    assert Latest(s1.settings, uid, AllFamilies, GIVING).Some?;
    assert PlanFor(s1, uid, runNow).Due?;
  }

  /** A reset by zero weeks followed by a run in the same week pays nothing. */
  lemma ResetByZeroPaysNothing(s: State, uid: UserId, resetNow: Millis, runNow: Millis, commitFails: bool)
    requires uid in s.users
    requires resetNow <= runNow < resetNow + MsPerWeek
    requires FirstMembership(s.members, uid).Some?
    ensures var s1 := ResetUser(s, uid, 0, resetNow);
            RunUser(s1, uid, runNow, commitFails) == Step(s1, Skipped(NothingDue))
  {
    ResetThenRunCountsWeeks(s, uid, 0, resetNow, runNow);
  }

  /**
   * A reset by a negative `w` puts the start date in the future. For a user
   * with a family and all three settings, whose saving growth is finite, the
   * next run still posts: it counts `w` weeks and posts a negative SPENDING
   * amount for a positive SPENDING setting.
   */
  lemma ResetByNegativeWeeksPostsNegative(s: State, uid: UserId, w: int, resetNow: Millis, runNow: Millis)
    requires uid in s.users
    requires w < 0
    requires resetNow <= runNow < resetNow + MsPerWeek
    requires FirstMembership(s.members, uid).Some?
    requires forall c: Category :: Latest(s.settings, uid, AllFamilies, c).Some?
    requires GrowthDefined(Latest(s.settings, uid, AllFamilies, SAVING).value.amount, w)
    requires Latest(s.settings, uid, AllFamilies, SPENDING).value.amount > 0
    ensures var r := RunUser(ResetUser(s, uid, w, resetNow), uid, runNow, false);
            && r.outcome.Posted?
            && r.outcome.weeks == w
            && r.outcome.rows[0].amount < 0
  {
    ResetThenRunCountsWeeks(s, uid, w, resetNow, runNow);
    var s1 := ResetUser(s, uid, w, resetNow);
    assert Latest(s1.settings, uid, AllFamilies, SPENDING).Some?;
    assert Latest(s1.settings, uid, AllFamilies, SAVING).Some?;
    assert Latest(s1.settings, uid, AllFamilies, GIVING).Some?;
    var p := PlanFor(s1, uid, runNow);
    assert p.Due? && p.weeks == w;
    assert p.spending == Latest(s.settings, uid, AllFamilies, SPENDING).value;
    var r := RunUser(s1, uid, runNow, false);
    assert r.outcome.rows[0].amount == p.spending.amount * w;
    NegativeTimesPositive(w, p.spending.amount);
  }

  lemma NegativeTimesPositive(a: int, b: int)
    requires a < 0 && b > 0
    ensures b * a < 0
  {
  }
}

=== FILE: ledger.dfy ===
/**
 * Queries and removals over the transaction ledger. The SAVING principal is
 * never stored: it is always the signed sum of the owner's SAVING rows in the
 * family, recomputed from the ledger.
 */
module Ledger {
  import opened Domain

  predicate IsSavingOf(t: Transaction, owner: UserId, family: FamilyId) {
    t.ownerId == owner && t.familyId == family && t.category == SAVING
  }

  /** Sum of `amount` over the SAVING rows of `owner` in `family` (0 when there are none). */
  function Principal(ledger: seq<Transaction>, owner: UserId, family: FamilyId): int
  {
    if |ledger| == 0 then 0
    else (if IsSavingOf(ledger[0], owner, family) then ledger[0].amount else 0)
         + Principal(ledger[1..], owner, family)
  }

  /** The principal of a concatenation is the sum of the principals. */
  lemma {:induction false} PrincipalAppend(a: seq<Transaction>, b: seq<Transaction>, owner: UserId, family: FamilyId)
    ensures Principal(a + b, owner, family) == Principal(a, owner, family) + Principal(b, owner, family)
    decreases |a|
  {
    if |a| == 0 {
      assert a + b == b;
    } else {
      assert (a + b)[1..] == a[1..] + b;
      PrincipalAppend(a[1..], b, owner, family);
    }
  }

  /** Removing the row at index `i` removes exactly its contribution to the principal. */
  lemma PrincipalRemoveAt(ledger: seq<Transaction>, i: nat, owner: UserId, family: FamilyId)
    requires i < |ledger|
    ensures Principal(ledger[..i] + ledger[i + 1..], owner, family)
            == Principal(ledger, owner, family) - (if IsSavingOf(ledger[i], owner, family) then ledger[i].amount else 0)
  {
    assert ledger == ledger[..i] + ([ledger[i]] + ledger[i + 1..]);
    PrincipalAppend(ledger[..i], [ledger[i]] + ledger[i + 1..], owner, family);
    PrincipalAppend([ledger[i]], ledger[i + 1..], owner, family);
    PrincipalAppend(ledger[..i], ledger[i + 1..], owner, family);
  }

  /** The index of the row with id `id`, if any (the store's `findUnique`). */
  function FindById(ledger: seq<Transaction>, id: TxId): (r: Option<nat>)
    ensures r.None? <==> forall k :: 0 <= k < |ledger| ==> ledger[k].id != id
    ensures r.Some? ==> r.value < |ledger| && ledger[r.value].id == id
  {
    if |ledger| == 0 then None
    else if ledger[0].id == id then Some(0)
    else
      var rest := FindById(ledger[1..], id);
      assert forall k :: 1 <= k < |ledger| ==> ledger[k] == ledger[1..][k - 1];
      if rest.Some? then Some(rest.value + 1) else None
  }

  predicate IsSystemRowOf(t: Transaction, owner: UserId) {
    t.ownerId == owner && t.isSystemCreated
  }

  /** The ledger without the system-created rows of `owner`, order kept. */
  function WithoutSystemRowsOf(ledger: seq<Transaction>, owner: UserId): (r: seq<Transaction>)
    ensures forall t :: t in r <==> t in ledger && !IsSystemRowOf(t, owner)
    ensures |r| <= |ledger|
    ensures UniqueIds(ledger) ==> UniqueIds(r)
  {
    if |ledger| == 0 then []
    else if IsSystemRowOf(ledger[0], owner) then WithoutSystemRowsOf(ledger[1..], owner)
    else
      var rest := WithoutSystemRowsOf(ledger[1..], owner);
      assert UniqueIds(ledger) ==> forall k :: 0 <= k < |rest| ==> rest[k].id != ledger[0].id by {
        if UniqueIds(ledger) {
          forall k | 0 <= k < |rest| ensures rest[k].id != ledger[0].id {
            assert rest[k] in ledger[1..];
            var m :| 0 <= m < |ledger[1..]| && ledger[1..][m] == rest[k];
            assert ledger[m + 1] == rest[k];
          }
        }
      }
      [ledger[0]] + rest
  }
}

=== FILE: settings.dfy ===
/**
 * Resolution of a user's effective allowance settings. Settings are never
 * edited in place: a change inserts a new version, and the effective setting
 * for a category is the version with the latest `createdAt` (the store query
 * orders by `createdAt` descending and keeps the first row per category).
 */
module Settings {
  import opened Domain

  /** Which settings a lookup considers: all of the user's, or one family's. */
  datatype Scope = AllFamilies | OnlyFamily(familyId: FamilyId)

  predicate Applies(st: Setting, uid: UserId, scope: Scope, c: Category) {
    && st.userId == uid
    && st.category == c
    && (scope.OnlyFamily? ==> st.familyId == scope.familyId)
  }

  /**
   * `st` is an effective version for `uid` and `c` in `ss`: it is stored,
   * applies, and no applicable version was created later.
   */
  predicate IsLatest(ss: seq<Setting>, uid: UserId, scope: Scope, c: Category, st: Setting) {
    && st in ss
    && Applies(st, uid, scope, c)
    && forall i :: 0 <= i < |ss| && Applies(ss[i], uid, scope, c) ==> ss[i].createdAt <= st.createdAt
  }

  /**
   * The effective setting of `uid` for category `c`: one with the greatest
   * `createdAt`; between versions created at the same instant the one first
   * in store order wins.
   */
  function Latest(ss: seq<Setting>, uid: UserId, scope: Scope, c: Category): (r: Option<Setting>)
    ensures r.None? <==> forall i :: 0 <= i < |ss| ==> !Applies(ss[i], uid, scope, c)
    ensures r.Some? ==> IsLatest(ss, uid, scope, c, r.value)
  {
    if |ss| == 0 then None
    else
      var rest := Latest(ss[1..], uid, scope, c);
      assert forall i :: 1 <= i < |ss| ==> ss[i] == ss[1..][i - 1];
      if !Applies(ss[0], uid, scope, c) then rest
      else if rest.Some? && rest.value.createdAt > ss[0].createdAt then rest
      else Some(ss[0])
  }

  /**
   * The effective settings list of the `distinct: ['category']` query: at most
   * one per category, each the latest version of its category. The query
   * orders it by `createdAt` descending; the model lists it in category order
   * SPENDING, SAVING, GIVING instead.
   */
  function LatestPerCategory(ss: seq<Setting>, uid: UserId, scope: Scope): (r: seq<Setting>)
    ensures |r| <= 3
    ensures forall j, k :: 0 <= j < k < |r| ==> r[j].category != r[k].category
    ensures forall j :: 0 <= j < |r| ==> Latest(ss, uid, scope, r[j].category) == Some(r[j])
    ensures forall c :: Latest(ss, uid, scope, c).Some? <==> exists j :: 0 <= j < |r| && r[j].category == c
    ensures |r| == 0 <==> forall i :: 0 <= i < |ss| ==> ss[i].userId != uid || (scope.OnlyFamily? && ss[i].familyId != scope.familyId)
  {
    var sp := Latest(ss, uid, scope, SPENDING);
    var sa := Latest(ss, uid, scope, SAVING);
    var gi := Latest(ss, uid, scope, GIVING);
    var r := (if sp.Some? then [sp.value] else []) + (if sa.Some? then [sa.value] else []) + (if gi.Some? then [gi.value] else []);
    assert sp.Some? ==> r[0] == sp.value;
    assert sa.Some? ==> r[if sp.Some? then 1 else 0] == sa.value;
    assert gi.Some? ==> r[|r| - 1] == gi.value;
    r
  }

  /**
   * Inserting a new version dated after every existing version of the same
   * category makes it the effective one.
   */
  lemma NewVersionTakesEffect(ss: seq<Setting>, st: Setting, uid: UserId, scope: Scope)
    requires Applies(st, uid, scope, st.category)
    requires forall i :: 0 <= i < |ss| && Applies(ss[i], uid, scope, st.category) ==> ss[i].createdAt < st.createdAt
    ensures Latest(ss + [st], uid, scope, st.category) == Some(st)
  {
    assert (ss + [st])[|ss|] == st;
    assert forall i :: 0 <= i < |ss| ==> (ss + [st])[i] == ss[i];
  }
}

=== FILE: test_transactions.dfy ===
/**
 * The bulk test-transaction generator (`app/api/test-transactions/route.ts`):
 * a parent creates, for a user, one row per (week, effective setting) pair,
 * copying the setting's raw amount, dated back one week per week index.
 */
module TestTransactions {
  import opened Domain
  import opened Settings

  datatype GenerateResponse =
    | NotAuthenticated       // 401
    | NotParent              // 403
    | InvalidInput           // 400: userId or weeks
    | NotInFamily            // 400
    | NoSettings             // 400
    | StoreFailed            // 500
    | Generated(count: nat)  // 200: the response is `{ success: true }`; `count`, the rows created, is the model's

  /**
   * The request is usable: a non-empty `userId` and a `weeks` value that is
   * truthy and between 1 and 52.
   */
  predicate ValidRequest(userId: Option<UserId>, weeks: Option<int>) {
    && Truthy(userId)
    && weeks.Some? && weeks.value != 0 && 1 <= weeks.value <= 52
  }

  /** The caller is a PARENT in at least one family (not necessarily the target's). */
  predicate IsParentAnywhere(members: seq<FamilyMember>, caller: UserId) {
    exists i :: 0 <= i < |members| && members[i].userId == caller && members[i].role == PARENT
  }

  /** Helper for the nested loop's indexing: row `q * n + j` has week `q` and setting `j`. */
  lemma DivModUnique(q: int, n: int, j: int)
    requires n > 0 && 0 <= j < n && q >= 0
    ensures (q * n + j) / n == q && (q * n + j) % n == j
  {
    var x := q * n + j;
    var q' := x / n;
    var r' := x % n;
    assert x == q' * n + r' && 0 <= r' < n;
    var d := q - q';
    assert d * n == r' - j by {
      assert d * n == q * n - q' * n;
    }
    if d >= 1 {
      MulAtLeast(d, n);
    } else if d <= -1 {
      MulAtLeast(-d, n);
    }
  }

  lemma MulAtLeast(d: int, n: int)
    requires d >= 1 && n > 0
    ensures d * n >= n
  {
    assert d * n == (d - 1) * n + n;
  }

  /**
   * The nested loop: for each week index `k` from 0 and each effective setting
   * in list order, one system row. Row `i` belongs to week `i / |settings|`
   * and to setting `i % |settings|`.
   */
  method BuildRows(firstId: TxId, owner: UserId, creator: UserId, family: FamilyId,
                   settings: seq<Setting>, weeks: nat, now: Millis) returns (rows: seq<Transaction>)
    requires |settings| > 0
    ensures |rows| == weeks * |settings|
    ensures forall i :: 0 <= i < |rows| ==>
              && rows[i].id == firstId + i
              && rows[i].ownerId == owner
              && rows[i].createdById == creator
              && rows[i].familyId == family
              && rows[i].category == settings[i % |settings|].category
              && rows[i].amount == settings[i % |settings|].amount
              && rows[i].description == WeeklyTestNote(settings[i % |settings|].category)
              && rows[i].date == now - (i / |settings|) * 7 * MsPerDay
              && rows[i].isSystemCreated
  {
    var n := |settings|;
    rows := [];
    var week := 0;
    while week < weeks
      invariant 0 <= week <= weeks
      invariant |rows| == week * n
      invariant forall i :: 0 <= i < |rows| ==>
                  && rows[i].id == firstId + i
                  && rows[i].ownerId == owner
                  && rows[i].createdById == creator
                  && rows[i].familyId == family
                  && rows[i].category == settings[i % n].category
                  && rows[i].amount == settings[i % n].amount
                  && rows[i].description == WeeklyTestNote(settings[i % n].category)
                  && rows[i].date == now - (i / n) * 7 * MsPerDay
                  && rows[i].isSystemCreated
    {
      var j := 0;
      while j < n
        invariant 0 <= j <= n
        invariant |rows| == week * n + j
        invariant forall i :: 0 <= i < |rows| ==>
                    && rows[i].id == firstId + i
                    && rows[i].ownerId == owner
                    && rows[i].createdById == creator
                    && rows[i].familyId == family
                    && rows[i].category == settings[i % n].category
                    && rows[i].amount == settings[i % n].amount
                    && rows[i].description == WeeklyTestNote(settings[i % n].category)
                    && rows[i].date == now - (i / n) * 7 * MsPerDay
                    && rows[i].isSystemCreated
      {
        var st := settings[j];
        DivModUnique(week, n, j);
        var row := Transaction(firstId + |rows|, owner, creator, family, st.category, st.amount,
                               WeeklyTestNote(st.category), now - week * 7 * MsPerDay, true);
        rows := rows + [row];
        j := j + 1;
      }
      week := week + 1;
    }
  }

  /**
   * The bulk insert of the generated rows: `weeks` rows per effective setting,
   * appended with fresh ids after the existing ledger.
   */
  method InsertRows(s: State, owner: UserId, creator: UserId, family: FamilyId,
                    latest: seq<Setting>, weeks: nat, now: Millis) returns (s': State)
    requires |latest| > 0
    ensures s'.users == s.users && s'.members == s.members && s'.settings == s.settings
    ensures s.ledger <= s'.ledger
    ensures |s'.ledger| == |s.ledger| + weeks * |latest|
    ensures s'.nextId == s.nextId + weeks * |latest|
    ensures forall i :: |s.ledger| <= i < |s'.ledger| ==>
              var k := i - |s.ledger|;
              && s'.ledger[i].isSystemCreated
              && s'.ledger[i].ownerId == owner
              && s'.ledger[i].createdById == creator
              && s'.ledger[i].familyId == family
              && s'.ledger[i].category == latest[k % |latest|].category
              && s'.ledger[i].amount == latest[k % |latest|].amount
              && s'.ledger[i].date == now - (k / |latest|) * 7 * MsPerDay
    ensures Wf(s) ==> Wf(s')
  {
    var rows := BuildRows(s.nextId, owner, creator, family, latest, weeks, now);
    s' := s.(ledger := s.ledger + rows, nextId := s.nextId + |rows|);
    forall i | |s.ledger| <= i < |s'.ledger| ensures s'.ledger[i] == rows[i - |s.ledger|] {
    }
    if Wf(s) {
      forall i | 0 <= i < |s'.ledger| ensures s'.ledger[i].id < s'.nextId {
      }
      forall i, j | 0 <= i < j < |s'.ledger| ensures s'.ledger[i].id != s'.ledger[j].id {
      }
    }
  }

  /**
   * The generator endpoint. `caller` is the session's user; `storeFails`
   * stands for a failure of the bulk insert, which inserts nothing.
   */
  method Generate(s: State, caller: Option<UserId>, userId: Option<UserId>, weeks: Option<int>,
                  now: Millis, storeFails: bool) returns (s': State, response: GenerateResponse)
    ensures response == NotAuthenticated <==> !Truthy(caller)
    ensures response == NotParent <==> Truthy(caller) && !IsParentAnywhere(s.members, caller.value)
    ensures response == InvalidInput <==>
              Truthy(caller) && IsParentAnywhere(s.members, caller.value) && !ValidRequest(userId, weeks)
    ensures response == NotInFamily <==>
              && Truthy(caller) && IsParentAnywhere(s.members, caller.value) && ValidRequest(userId, weeks)
              && FirstMembership(s.members, userId.value).None?
    ensures response == NoSettings <==>
              && Truthy(caller) && IsParentAnywhere(s.members, caller.value) && ValidRequest(userId, weeks)
              && FirstMembership(s.members, userId.value).Some?
              && |LatestPerCategory(s.settings, userId.value, OnlyFamily(FirstMembership(s.members, userId.value).value.familyId))| == 0
    ensures response == StoreFailed <==>
              && Truthy(caller) && IsParentAnywhere(s.members, caller.value) && ValidRequest(userId, weeks)
              && FirstMembership(s.members, userId.value).Some?
              && |LatestPerCategory(s.settings, userId.value, OnlyFamily(FirstMembership(s.members, userId.value).value.familyId))| > 0
              && storeFails
    ensures response.Generated? <==>
              && Truthy(caller) && IsParentAnywhere(s.members, caller.value) && ValidRequest(userId, weeks)
              && FirstMembership(s.members, userId.value).Some?
              && |LatestPerCategory(s.settings, userId.value, OnlyFamily(FirstMembership(s.members, userId.value).value.familyId))| > 0
              && !storeFails
    ensures response.Generated? ==> !storeFails
    ensures !response.Generated? ==> s' == s
    ensures response.Generated? ==>
              && Truthy(caller) && IsParentAnywhere(s.members, caller.value) && ValidRequest(userId, weeks)
              && FirstMembership(s.members, userId.value).Some?
              && s'.users == s.users && s'.members == s.members && s'.settings == s.settings
              && s.ledger <= s'.ledger
              && s'.nextId == s.nextId + response.count
              && |s'.ledger| == |s.ledger| + response.count
    ensures response.Generated? ==>
              var family := FirstMembership(s.members, userId.value).value.familyId;
              var latest := LatestPerCategory(s.settings, userId.value, OnlyFamily(family));
              && |latest| > 0
              && response.count == weeks.value * |latest|
              && forall i :: |s.ledger| <= i < |s'.ledger| ==>
                   var k := i - |s.ledger|;
                   && s'.ledger[i].isSystemCreated
                   && s'.ledger[i].ownerId == userId.value
                   && s'.ledger[i].createdById == caller.value
                   && s'.ledger[i].familyId == family
                   && s'.ledger[i].category == latest[k % |latest|].category
                   && s'.ledger[i].amount == latest[k % |latest|].amount
                   && s'.ledger[i].date == now - (k / |latest|) * 7 * MsPerDay
    ensures Wf(s) ==> Wf(s')
  {
    s' := s;
    if !Truthy(caller) {
      return s, NotAuthenticated;
    }
    if !IsParentAnywhere(s.members, caller.value) {
      return s, NotParent;
    }
    if !ValidRequest(userId, weeks) {
      return s, InvalidInput;
    }
    var uid := userId.value;
    var membership := FirstMembership(s.members, uid);
    if membership.None? {
      return s, NotInFamily;
    }
    var family := membership.value.familyId;
    var latest := LatestPerCategory(s.settings, uid, OnlyFamily(family));
    if |latest| == 0 {
      return s, NoSettings;
    }
    if storeFails {
      return s, StoreFailed;
    }
    s' := InsertRows(s, uid, caller.value, family, latest, weeks.value, now);
    response := Generated(weeks.value * |latest|);
  }
}

=== FILE: username.dfy ===
/**
 * The username form (`app/signup/UsernameForm.tsx`): the validation schema
 * (3 to 20 characters from `[A-Za-z0-9_]`), the availability check fired on
 * each change, and the submit-button condition.
 */
module Username {
  import opened Domain

  const MinLength: int := 3
  const MaxLength: int := 20

  predicate IsUsernameChar(c: char) {
    ('a' <= c <= 'z') || ('A' <= c <= 'Z') || ('0' <= c <= '9') || c == '_'
  }

  /** `/^[a-zA-Z0-9_]+$/`: one or more class characters, consumed left to right. */
  predicate MatchesPattern(u: string) {
    |u| >= 1 && IsUsernameChar(u[0]) && (|u| == 1 || MatchesPattern(u[1..]))
  }

  /** The schema's checks; every failing check reports an issue. */
  datatype Issue = TooShort | TooLong | BadCharacters

  function UsernameIssues(u: string): seq<Issue> {
    (if |u| < MinLength then [TooShort] else [])
    + (if |u| > MaxLength then [TooLong] else [])
    + (if !MatchesPattern(u) then [BadCharacters] else [])
  }

  predicate Accepted(u: string) {
    UsernameIssues(u) == []
  }

  lemma {:induction false} MatchesPatternIff(u: string)
    ensures MatchesPattern(u) <==> |u| >= 1 && forall i :: 0 <= i < |u| ==> IsUsernameChar(u[i])
    decreases |u|
  {
    if |u| > 1 {
      MatchesPatternIff(u[1..]);
      assert forall i :: 1 <= i < |u| ==> u[i] == u[1..][i - 1];
    }
  }

  /** A username is accepted exactly when it has 3 to 20 characters, all from `[A-Za-z0-9_]`. */
  lemma UsernameAcceptedIff(u: string)
    ensures Accepted(u) <==> MinLength <= |u| <= MaxLength && forall i :: 0 <= i < |u| ==> IsUsernameChar(u[i])
  {
    MatchesPatternIff(u);
  }

  /** The empty string fails both the length check and the pattern. */
  lemma EmptyUsernameIssues()
    ensures UsernameIssues("") == [TooShort, BadCharacters]
  {
  }

  /** What one change of the input does: whether the server check runs, and the new availability. */
  datatype ChangeEffect = ChangeEffect(checkCalled: bool, availability: Option<bool>)

  /**
   * `handleUsernameChange`: with at least three characters the server is
   * asked and its answer stored; otherwise availability resets to unknown.
   */
  function OnUsernameChange(value: string, serverSaysAvailable: bool): (r: ChangeEffect)
    ensures r.checkCalled <==> |value| >= MinLength
    ensures r.availability.None? <==> |value| < MinLength
    ensures r.availability.Some? ==> r.availability.value == serverSaysAvailable
  {
    if |value| >= 3 then ChangeEffect(true, Some(serverSaysAvailable))
    else ChangeEffect(false, None)
  }

  /** `disabled={!isAvailable || submitState.loading}`. */
  predicate SubmitDisabled(isAvailable: Option<bool>, loading: bool) {
    !(isAvailable.Some? && isAvailable.value) || loading
  }

  /** Submit is enabled exactly when availability is `true` and nothing is loading. */
  lemma SubmitEnabledIff(isAvailable: Option<bool>, loading: bool)
    ensures !SubmitDisabled(isAvailable, loading) <==> isAvailable == Some(true) && !loading
  {
  }

  /** A click submits when the button is enabled and the schema accepts the value. */
  predicate Submits(value: string, isAvailable: Option<bool>, loading: bool) {
    !SubmitDisabled(isAvailable, loading) && Accepted(value)
  }

  /**
   * After a change to `value`, a submission happens only for a valid name the
   * server reported available; a name of one or two characters never reaches
   * the server or the submit action.
   */
  lemma SubmissionNeedsValidAvailableName(value: string, serverSaysAvailable: bool, loading: bool)
    ensures Submits(value, OnUsernameChange(value, serverSaysAvailable).availability, loading) <==>
              && serverSaysAvailable
              && !loading
              && MinLength <= |value| <= MaxLength
              && forall i :: 0 <= i < |value| ==> IsUsernameChar(value[i])
  {
    UsernameAcceptedIff(value);
  }
}
